=== FILE: README.md ===
# screenrecord, modelled in Dafny

This project models the core of Android's `screenrecord` command-line tool. The tool mirrors the main display into a virtual display. A video encoder (and, optionally, an AAC audio encoder fed from the microphone) compresses it. A `MediaMuxer` writes the result to an MP4 file. Recording ends on an interrupt or a time limit.

Three parts are modelled:

- **The encode-and-mux loop of `runEncoder`** (`EncoderLoop`). The loop is a deterministic step function. Each iteration's observations arrive as a `Tick`: the stop flag, the monotonic clock, each encoder's `dequeueOutputBuffer` outcome, and the status answers of `addTrack`, `start`, `writeSampleData`, `releaseOutputBuffer` and `getOutputBuffers`. The calls `runEncoder` makes to the muxer, the buffer fetches, the output-buffer releases and the microphone's set-up, start and stop are recorded in an action trace, at the moment each is made and whatever its answer. Three kinds of call are not recorded. The `dequeueOutputBuffer` calls (`screenrecord.cpp:470`, `:558`) are the tick's observations rather than actions. The code does not look at the status of the `getOutputFormat` calls before each `addTrack` (`:525`, `:611`). In the audio input submission at the loop head (`:456-464`), the status of `dequeueInputBuffer` decides whether `read` and `queueInputBuffer` happen, and the status of `queueInputBuffer` is overwritten unread, so both decide only calls that are not modelled.
  - `LoopProperties` replays the trace and proves that every muxer call is sound where it is made.
  - `LoopTheorems` draws the consequences. A write names the track `addTrack` returned for its stream. Without audio, nothing is written before `start()`. `start()` follows the expected number of `addTrack` calls. Audio timestamps never go back. The loop stops at the first iteration that sees the stop flag or the deadline.
- **`recordScreen`** (`Recorder`). This covers:
  - the default video size;
  - the single retry at the 720p fallback size;
  - the fall-back to video only when the audio encoder cannot be prepared;
  - the display projection frame and the muxer's rotation hint;
  - the teardown. The teardown differs after a clean exit, after a failure of the loop, and after a failure during start-up.
- **The pure helpers** (`CommandLine`, `Geometry`, `AudioSizing`, `Status`):
  - `parseWidthHeight`, over a model of base-10 `strtol`;
  - the range checks `main` applies to `--size`, `--bit-rate` and `--time-limit`, including the `uint32_t` wrap of `atoi`'s result;
  - `isDeviceRotated` and the width/height swaps;
  - `getMinBuffSize`, with its `uint32_t` return that turns `-1` into `0xFFFFFFFF`;
  - the microphone's capture-buffer sizing.

Collaborators are not called; their answers are parameters. The codecs, the muxer, the compositor, the clock, the interrupt and `AudioRecord` all work this way.

### Behaviour modelled as the code has it

Some descriptions of the tool differ from the code on the points below. The model follows the code.

- **End of stream.** An end-of-stream flag on a buffer does not end the loop. The code writes `false` into the stop flag (`screenrecord.cpp:511-515`, `:597-601`). So the next iteration stops only for an interrupt or the deadline (`LoopTheorems.EndOfStreamDoesNotStop`). The same write also erases an interrupt that arrived earlier in that iteration, after its loop-head test. The model reads the interrupt once per iteration at the loop head, so it does not represent that lost interrupt (see "Left out").
- **Deadline.** The deadline test is strict: the loop leaves only when the clock is *past* `start + limit` (`:447`).
- **Failed write.** A failed `writeSampleData` returns at once. The buffer it came from is not released (`:498-502`, `:585-589`).
- **Teardown.** It is not done on every exit path. A failure during start-up, before `runEncoder` is called, releases nothing from `recordScreen`. When `runEncoder` returns an error, the encoders are released but neither they nor the muxer are stopped (`:750-759`). That error may come from its set-up before the loop or from the loop itself. A failed `CHECK` aborts the process.
- **Fallback retry.** The 720p retry is made only when the failed size differs from the fallback in *both* width and height (`:707`). So a failure at, say, 1280x1080 is not retried.
- **Writes before `start()` with audio.** With audio recorded, a video sample can be written after its track was added but before `muxer->start()`. The only guard is the track-index `CHECK` (`LoopTheorems.VideoWriteBeforeStart`).
- **Muxer start.** The muxer is started after any two `addTrack` calls. Two video format changes start it with no audio track (`LoopTheorems.StartWithoutAudioTrack`).

## Model

| member | source | states |
|---|---|---|
| `Status.ToU32` | cmds/screenrecord/screenrecord.cpp:65-68 | storing an integer in a `uint32_t` keeps its residue modulo 2^32, and keeps it unchanged when it is already in range |
| `Geometry.IsDeviceRotated` | cmds/screenrecord/screenrecord.cpp:128-131 | among the four orientations, exactly 90 and 270 degrees count as rotated; any unknown orientation value counts as rotated too |
| `Geometry.LayerStackSize` | cmds/screenrecord/screenrecord.cpp:260-270 | the mirrored layer-stack area has the display's two dimensions: as reported when upright, exchanged at 90 or 270 degrees |
| `Geometry.DefaultVideoSize` | cmds/screenrecord/screenrecord.cpp:688-694 | each dimension the user gave is kept; each one left at zero comes from the display. With no size given, it is the display as the user sees it |
| `Geometry.ProjectionFrame` | cmds/screenrecord/screenrecord.cpp:287-295 | the projection frame is the video size, turned a quarter when a 90-degree rotation hint is requested; its area is unchanged |
| `AudioSizing.MinBufferSize` | cmds/screenrecord/screenrecord.cpp:341-365 | BAD_VALUE from the frame-count query gives 0 and any other error gives 0xFFFFFFFF. Otherwise it is frames x channels x 2 bytes for PCM 16-bit and x 1 byte otherwise, wrapped to 32 bits |
| `AudioSizing.CaptureBufferSize` | cmds/screenrecord/screenrecord.cpp:412-416 | the capture buffer is at least the minimum and at least ten 2048-sample frames, and a multiple of 4096. It is exactly ten frames iff the minimum fits, and otherwise at most twice the minimum plus 4096 |
| `AudioSizing.CaptureFrameCount` | cmds/screenrecord/screenrecord.cpp:412-424 | the frame count given to AudioRecord is half the buffer size: whole 2048-sample frames, covering at least half the minimum |
| `CommandLine.StrToL` | cmds/screenrecord/screenrecord.cpp:851 | base-10 `strtol` leaves `end` at the start with value 0 when there are no digits, and otherwise just after the last digit of the longest digit run |
| `CommandLine.StrToLDigits` | cmds/screenrecord/screenrecord.cpp:851 | a digit string followed by a non-digit is read whole, with its decimal value |
| `CommandLine.StrToLSigned` | cmds/screenrecord/screenrecord.cpp:851 | leading white space, an optional `+` or `-` and a digit run that no digit continues are read as the signed value of the digits, ending just after the last digit |
| `CommandLine.StrToLNoDigits` | cmds/screenrecord/screenrecord.cpp:851-852 | white space and an optional sign with no digit after them give 0 and leave the end at the start of the string, which `parseWidthHeight` rejects |
| `CommandLine.ParseWidthHeight` | cmds/screenrecord/screenrecord.cpp:845-865 | it rejects a string with no digits, one that ends after the width, and one with anything but `x` after the width. On success the width is the first `strtol` value, and the height is a `strtol` that reaches the end of the string |
| `CommandLine.FormatThenParse` | cmds/screenrecord/screenrecord.cpp:845-865 | parsing `WxH` written in decimal gives back exactly (W, H), for W and H below 2^63, where a 64-bit `strtol` does not clamp |
| `CommandLine.RejectMissingHeight` | cmds/screenrecord/screenrecord.cpp:852-855 | a width followed by `x` and nothing else is rejected |
| `CommandLine.RejectMissingSeparator` | cmds/screenrecord/screenrecord.cpp:852-855 | a width followed by anything other than `x` or more digits is rejected |
| `CommandLine.RejectTrailing` | cmds/screenrecord/screenrecord.cpp:856-860 | characters after the height are rejected |
| `CommandLine.SizeOption` | cmds/screenrecord/screenrecord.cpp:929-942 | a `--size` that parses is accepted iff both of its values, stored as `uint32_t`, are nonzero, and then those two stored values are the size; a `--size` that does not parse is refused |
| `CommandLine.SizeOptionDigits` | cmds/screenrecord/screenrecord.cpp:929-942 | a size written in decimal within `uint32_t` range is accepted as written |
| `CommandLine.BitRateAccepted` | cmds/screenrecord/screenrecord.cpp:943-951 | for any `int` from `atoi`, the bit rate is accepted iff it lies in [100000, 100000000]; negative values wrap out of range |
| `CommandLine.TimeLimitAccepted` | cmds/screenrecord/screenrecord.cpp:952-960 | for any `int` from `atoi`, the time limit is accepted iff it lies in [1, 180] |
| `CommandLine.Apply` | cmds/screenrecord/screenrecord.cpp:926-966 | an option that passes its check sets its own field and no other: the two stored dimensions and the size flag for `--size`, `atoi`'s value stored as `uint32_t` for `--bit-rate` and `--time-limit`, and a raised flag for the others. The settings stay within every range check |
| `CommandLine.ApplyOptions` | cmds/screenrecord/screenrecord.cpp:915-973 | the option loop keeps the settings within every range check and rejects with status 2. It shows usage only for `--help`, and records only without unknown options. Rotate, audio and size are set iff their option appeared |
| `CommandLine.ApplyOptionsOutcome` | cmds/screenrecord/screenrecord.cpp:915-973 | the option loop records iff every option passes its check and none is `--help`. It shows usage iff a `--help` comes before any option that fails |
| `CommandLine.ApplyOptionsStores` | cmds/screenrecord/screenrecord.cpp:929-960 | the recorded bit rate, time limit and size are those of the last option that set each, converted as the code converts them, or the starting values when no option sets them |
| `CommandLine.ParseCommandLine` | cmds/screenrecord/screenrecord.cpp:903-979 | a recording starts only with admissible settings and exactly one file-name argument. Its flags are set iff the matching options were given |
| `CommandLine.CommandLineOutcome` | cmds/screenrecord/screenrecord.cpp:915-978 | `main` goes on to record iff every option passes, none asks for help, and exactly one argument remains. It shows usage iff a `--help` comes before any option that fails |
| `CommandLine.CommandLineStores` | cmds/screenrecord/screenrecord.cpp:929-960 | a recording uses the last value given for each of the bit rate, time limit and size, or else the defaults: 4000000 b/s, 180 s, and a 0x0 size later taken from the display |
| `EncoderLoop.Classify` | cmds/screenrecord/screenrecord.cpp:473-554 | the `switch` on the dequeue status gives back exactly that status. A buffer comes iff NO_ERROR, and an unrecognised code is kept |
| `EncoderLoop.ClassifyStatusOf` | cmds/screenrecord/screenrecord.cpp:473-554 | classifying an outcome's status gives the outcome back |
| `EncoderLoop.VideoPts` | cmds/screenrecord/screenrecord.cpp:487-491 | a video timestamp of 0 becomes the monotonic clock in whole microseconds; any other timestamp is kept |
| `EncoderLoop.AudioPts` | cmds/screenrecord/screenrecord.cpp:575-578 | an audio timestamp is never negative and never behind the previous one. It is kept when already in order, and becomes the previous one plus 23219 us when it would go back |
| `EncoderLoop.Dispatch` | cmds/screenrecord/screenrecord.cpp:474-554 | it describes one dequeue outcome's handling: `addTrack` on a format change, and `start()` exactly when the expected track count is reached. A codec-config buffer is only released. A write needs a payload and a registered track, and otherwise the CHECK aborts. A failed write returns without release. Each buffer carried on from is released once, last |
| `EncoderLoop.BufferTurn` | cmds/screenrecord/screenrecord.cpp:474-516 | a dequeued buffer: a codec-config buffer is only released. A payload is written only to its stream's known track, with the corrected timestamp, and otherwise the CHECK aborts. A failed write returns at once, and a buffer carried on from is released once, last |
| `EncoderLoop.DispatchEnds` | cmds/screenrecord/screenrecord.cpp:520-546 | a format change that reaches the track count starts the muxer; if `start()` fails the loop ends with its status after `addTrack` and `start()`, and otherwise the muxer is marked started. A format change below the count only adds the track. A failed buffer refresh ends the loop with its status. A buffer with no payload is only released |
| `EncoderLoop.DispatchBufferEnds` | cmds/screenrecord/screenrecord.cpp:482-510 | a dispatch aborts exactly when a buffer with a payload arrives before its stream's track is known, which is the CHECK. A buffer that reaches its release fails exactly when the release fails, with the release's status |
| `EncoderLoop.Released` | cmds/screenrecord/screenrecord.cpp:505-515 | the buffer is released. A release failure is returned, and end of stream lowers the stop flag |
| `EncoderLoop.Step` | cmds/screenrecord/screenrecord.cpp:442-644 | an iteration stops iff the stop flag is up or the clock is strictly past the deadline. Carrying on leaves the flag down, failures carry an error code, and no audio call is made without audio |
| `EncoderLoop.StepRunsDispatches` | cmds/screenrecord/screenrecord.cpp:469-641 | an iteration that does not exit is the video dispatch, followed by the audio dispatch when audio is recorded and video carried on. Its calls are video's then audio's, and it fails or aborts as the first dispatch that does so |
| `EncoderLoop.Loop` | cmds/screenrecord/screenrecord.cpp:442-644 | a loop ending with NO_ERROR saw an interrupt or the deadline in some iteration. Failures carry an error code, and no audio call is made without audio |
| `EncoderLoop.Deadline` | cmds/screenrecord/screenrecord.cpp:382-383 | the deadline is fixed at entry, no earlier than the start, and later than it for any positive limit |
| `EncoderLoop.DeadlineWholeSeconds` | cmds/screenrecord/screenrecord.cpp:382-383 | the deadline lies exactly the time limit, in whole seconds of 10^9 ns, after the start |
| `EncoderLoop.RecorderFrames` | cmds/screenrecord/screenrecord.cpp:412-422 | the microphone's frame count is a whole number of 2048-sample frames and at least 10240. It covers the minimum frame count the query reported. It is 10240 when the query answers BAD_VALUE and 2^32 when it fails otherwise |
| `EncoderLoop.SetUp` | cmds/screenrecord/screenrecord.cpp:387-436 | the set-up fetches the video buffers first and makes no muxer call. With audio, it fetches the audio buffers, then configures AudioRecord with the computed frame count, then starts it. It succeeds iff every step succeeds. Otherwise it ends at the first failing call and returns that call's status, with the calls up to and including it |
| `EncoderLoop.Epilogue` | cmds/screenrecord/screenrecord.cpp:644 | after the loop only the microphone is stopped: exactly once after a clean exit with audio, and not at all otherwise |
| `EncoderLoop.RunEncoder` | cmds/screenrecord/screenrecord.cpp:374-653 | `runEncoder` begins by fetching the video buffers. Every error it returns is nonzero, it makes no audio call without audio, and it returns NO_ERROR only after an exit iteration |
| `EncoderLoop.RunEncoderStops` | cmds/screenrecord/screenrecord.cpp:442-452 | `runEncoder` returns NO_ERROR only after an iteration that saw the interrupt or a clock strictly past the start plus the limit times 10^9 ns |
| `EncoderLoop.RunEncoderParts` | cmds/screenrecord/screenrecord.cpp:387-653 | a set-up failure is returned with its own status and calls. Otherwise `runEncoder` ends as its loop ends, and its calls are the set-up's, then the loop's, then the microphone stop |
| `LoopProperties.DispatchConforms` | cmds/screenrecord/screenrecord.cpp:474-636 | every call of a dispatch is sound in the state it is made in, and the loop invariant is kept |
| `LoopProperties.LoopConforms` | cmds/screenrecord/screenrecord.cpp:442-644 | the whole loop trace is sound from any state meeting the invariant |
| `LoopProperties.RunEncoderConforms` | cmds/screenrecord/screenrecord.cpp:374-653 | every trace `runEncoder` produces is sound from its initial variables |
| `LoopTheorems.WritesFollowAddTrack` | cmds/screenrecord/screenrecord.cpp:482-497 | every sample write names a track other than -1 that `addTrack` returned earlier for the same stream |
| `LoopTheorems.WritesFollowStartWithoutAudio` | cmds/screenrecord/screenrecord.cpp:520-534 | without audio, every write is preceded by `muxer->start()` |
| `LoopTheorems.StartFollowsTracks` | cmds/screenrecord/screenrecord.cpp:527-529 | `muxer->start()` comes only after at least the expected number of `addTrack` calls (1 without audio, 2 with) |
| `LoopTheorems.AudioStampsNondecreasing` | cmds/screenrecord/screenrecord.cpp:575-584 | the timestamps of the audio samples written are never negative and never go back |
| `LoopTheorems.AudioClockMovesOnlyOnWrite` | cmds/screenrecord/screenrecord.cpp:570-584 | the last audio timestamp changes only with an audio write, and then to that write's timestamp |
| `LoopTheorems.LoopSplit` | cmds/screenrecord/screenrecord.cpp:442-644 | running the loop over two stretches of iterations is running the second from where the first left off; nothing follows a stop, failure or abort |
| `LoopTheorems.StopsAtExitTick` | cmds/screenrecord/screenrecord.cpp:442-451 | the first iteration that sees the interrupt or the deadline ends the loop with NO_ERROR and adds no call |
| `LoopTheorems.EndsAtFailingTick` | cmds/screenrecord/screenrecord.cpp:442-641 | an iteration that fails ends the loop with that iteration's error code, and one whose CHECK fails ends it aborted. Either way, the iteration's calls close the trace |
| `LoopTheorems.EndOfStreamDoesNotStop` | cmds/screenrecord/screenrecord.cpp:511-515 | after an end-of-stream buffer, the next iteration stops iff it sees an interrupt or the deadline |
| `LoopTheorems.VideoWriteBeforeStart` | cmds/screenrecord/screenrecord.cpp:482-497 | with audio on, a video sample is written after `addTrack` and with no `start()` in the trace |
| `LoopTheorems.StartWithoutAudioTrack` | cmds/screenrecord/screenrecord.cpp:520-534 | with audio on, two video format changes start the muxer while the audio track is still -1 |
| `Recorder.FallbackSize` | cmds/screenrecord/screenrecord.cpp:702-706 | the fallback is 1280x720 or 720x1280, portrait exactly when the failed size is portrait |
| `Recorder.RetrySize` | cmds/screenrecord/screenrecord.cpp:702-714 | a retry is made iff the first attempt failed, no size was given, and both dimensions differ from the fallback; it uses the fallback, which differs from the failed size |
| `Recorder.Shutdown` | cmds/screenrecord/screenrecord.cpp:766-774 | a clean shutdown destroys the display first. Every stop comes before every release, and the encoders stop before the muxer. The video encoder is stopped and released; audio is stopped and released iff it was recorded. That makes six calls with audio and four without |
| `Recorder.ShutdownOnce` | cmds/screenrecord/screenrecord.cpp:766-774 | each shutdown call is made once; the video encoder is stopped before the audio encoder and released before it |
| `Recorder.ReleaseEncoders` | cmds/screenrecord/screenrecord.cpp:751-759 | after a loop failure, the video encoder is released first and the audio encoder second, each once and audio iff recorded, and the muxer is not stopped |
| `Recorder.StartUp` | cmds/screenrecord/screenrecord.cpp:661-718 | start-up configures signals first. A signal failure returns at once, and a display-info failure returns after the thread pool and the query. Past the query, the video encoder is prepared at the default size and, iff the retry conditions hold, again at the fallback. The status is the retry's when one was made and the first attempt's otherwise |
| `Recorder.Staging` | cmds/screenrecord/screenrecord.cpp:720-747 | the audio encoder is prepared iff audio was asked for, the muxer is always created, and the 90-degree hint is set iff rotating |
| `Recorder.StagingOrder` | cmds/screenrecord/screenrecord.cpp:720-747 | the staging calls are, in order, the audio encoder (when asked for), the virtual display over the display's layer stack with the video's projection frame, the muxer, and the rotation hint (when rotating), each once |
| `Recorder.AudioRecorded` | cmds/screenrecord/screenrecord.cpp:720-726 | audio is recorded only when asked for, and then iff its encoder was prepared |
| `Recorder.OutcomeOf` | cmds/screenrecord/screenrecord.cpp:750-776 | a session finishes iff the loop stopped cleanly, and an error from the loop is returned as is |
| `Recorder.Teardown` | cmds/screenrecord/screenrecord.cpp:750-776 | after the loop: the shutdown sequence after a clean exit, the encoders' release after a returned error, and nothing after a failed `CHECK`. It holds only stops, releases and the display's destruction |
| `Recorder.TeardownCalls` | cmds/screenrecord/screenrecord.cpp:750-774 | the display is destroyed and the muxer stopped iff the loop exited cleanly. The video encoder is released iff it exited cleanly or returned an error, and the audio encoder in the same cases when audio is recorded |
| `Recorder.Conclude` | cmds/screenrecord/screenrecord.cpp:720-776 | once the video encoder is prepared, the session's outcome is how `runEncoder` ended, and its calls hold both the start-up's and the loop's |
| `Recorder.ConcludeCalls` | cmds/screenrecord/screenrecord.cpp:742-776 | after the start-up calls, which stay a prefix, the muxer is always created, stopped iff the loop exited cleanly, and the video encoder released iff it exited cleanly or returned an error |
| `Recorder.MuxerBeforeEncoder` | cmds/screenrecord/screenrecord.cpp:743-750 | the muxer is created before `runEncoder` makes any encoder call, given start-up calls of the kinds `StartUp` makes |
| `Recorder.ConcludeActions` | cmds/screenrecord/screenrecord.cpp:749-750 | the session's encoder-loop calls are exactly the trace of `runEncoder` |
| `Recorder.RecordScreen` | cmds/screenrecord/screenrecord.cpp:661-776 | it returns the first failing start-up status, or the retry's status after a retry, before anything else is set up. Once the video encoder is prepared, the session ends as `runEncoder` does. Every error is nonzero, and a clean finish saw an interrupt or the deadline |
| `Recorder.RetriesAtMostOnce` | cmds/screenrecord/screenrecord.cpp:700-714 | the video encoder is prepared at the default size and, exactly when the fallback conditions hold, once more at the fallback: never more than twice |
| `Recorder.StopMuxerOnlyOnSuccess` | cmds/screenrecord/screenrecord.cpp:750-774 | the muxer is stopped and the display destroyed iff the session finished cleanly. The video encoder is released iff it finished or the loop failed |
| `Recorder.TeardownOrder` | cmds/screenrecord/screenrecord.cpp:766-776 | after a clean finish the shutdown sequence is the session's tail, and no stop or release comes earlier |
| `Recorder.AudioFailureRecordsVideoOnly` | cmds/screenrecord/screenrecord.cpp:720-727 | when the audio encoder cannot be prepared, recording goes on with no audio call in the loop and no audio stop or release |
| `Recorder.SessionConforms` | cmds/screenrecord/screenrecord.cpp:743-750 | every muxer call of a whole session is sound |

## Left out

- Signal handling (`signalCatcher`, `configureSignals`) is reduced to its status and to a per-iteration interrupt flag, read at the loop head. That covers every interleaving but one: an interrupt erased by an end-of-stream write in the same iteration, described below.
- `prepareVideoEncoder` and `prepareAudioEncoder` are reduced to their statuses. Their codec formats, and their release of a codec that failed to configure, are not modelled.
- `prepareVirtualDisplay`: its floating-point fit of the content rectangle and its offsets are not modelled. Its status is always NO_ERROR, so the error branch after it is dead and not modelled.
- The audio input submission at the loop head (`dequeueInputBuffer`, `AudioRecord::read`, `queueInputBuffer`) is left out. The dequeue's status decides only whether the read and the queueing, which are not modelled either, happen; the queueing's status is overwritten unread. So the submission influences nothing modelled.
- `notifyMediaScanner`, `usage`, opening the output file, verbose printing, logging and the frame counter are I/O without effect on the modelled decisions.
- getopt_long is not modelled: options arrive already split, with `atoi` applied.
- `CommandLine.StrToL`: the clamp to LONG_MIN/LONG_MAX on overflow is not modelled, and neither is the `long` to `uint32_t` store beyond the 32-bit wrap in `SizeOption`. `long` is taken to be 64 bits wide.
- `CommandLine.StrToLDigits`: it states the unclamped decimal value, which is the program's value only below 2^63.
- `CommandLine.StrToLSigned`: it states the unclamped signed value, which is the program's value only from -2^63 to 2^63 - 1.
- `EncoderLoop.AudioPts`: timestamps are unbounded integers, not `int64_t`. The `lastAudioPtsUs + 23219` correction (`:577`) would wrap within 23219 us of INT64_MAX, and that wrap is not modelled. `LoopTheorems.AudioStampsNondecreasing` relies on this.
- `EncoderLoop.Deadline`: signed 64-bit overflow of `start + limit` is not modelled. The clock and the limit are unbounded naturals.
- `AudioSizing.MinBufferSize`: the exact product is stated only when frames x channels lies below 2^31. Above that, the contract states only that the result is below 2^32.
- `AudioSizing.CaptureBufferSize`: `size_t` is taken to be 64 bits wide. With a 32-bit `size_t`, the 0xFFFFFFFF minimum would wrap the computed buffer size to 0, and that case is not modelled.
- `AudioSizing.CaptureFrameCount`: with the same 64-bit `size_t`, it is half the unwrapped buffer size.
- An interrupt that arrives during an iteration which then dequeues an end-of-stream buffer is erased by the code's `false` write (`:514`, `:600`). The model reads the interrupt once per iteration at the loop head, so that interrupt is counted at the next iteration instead of being lost.
- `EncoderLoop.Loop`: the loop runs over a finite sequence of iterations. Running out of iterations is a distinct `Pending` ending, not a claim about termination.
- The rotation hint, the projection's layer stack and the video size are recorded as call arguments. The compositor's use of them is not modelled.

=== FILE: audio_sizing.dfy ===
/**
 * Sizing of the microphone capture buffer: `getMinBuffSize` and the
 * AudioRecord buffer size `runEncoder` derives from it.
 */
module AudioSizing {
  import opened Status

  const AudioSampleRate: nat := 22050
  const SamplesPerFrame: nat := 2048
  /** The preferred capture buffer: ten frames' worth of bytes. */
  const PreferredBufferSize: nat := 10 * SamplesPerFrame

  /** AUDIO_FORMAT_PCM_16_BIT (system/audio.h, not part of this model). */
  const FormatPcm16Bit: int := 1

  function BytesPerSample(format: int): nat {
    if format == FormatPcm16Bit then 2 else 1
  }

  /**
   * `getMinBuffSize`. `query` is the status AudioRecord::getMinFrameCount
   * returned and `frameCount` the count it reported. The product is
   * returned as a `uint32_t`, so it wraps; so does the `-1` error return.
   */
  function MinBufferSize(query: int, frameCount: nat, channels: nat, format: int): (r: nat)
    ensures r < U32Modulus
    ensures query == BadValue ==> r == 0
    ensures query != BadValue && query != NoError ==> r == U32Modulus - 1
    ensures query == NoError && frameCount * channels < U32Modulus / 2 ==>
              r == (if format == FormatPcm16Bit then 2 * frameCount * channels else frameCount * channels)
    ensures query == NoError ==> (r == 0 <== frameCount == 0 || channels == 0)
  {
    if query == BadValue then 0
    else if query != NoError then ToU32(-1)
    else ToU32(frameCount * channels * BytesPerSample(format))
  }

  /**
   * The byte size handed to AudioRecord: ten frames unless that is below
   * the minimum, in which case the minimum rounded up past the next frame
   * boundary and doubled.
   */
  function CaptureBufferSize(minSize: nat): (r: nat)
    ensures r >= minSize
    ensures r >= PreferredBufferSize
    ensures r % (2 * SamplesPerFrame) == 0
    ensures r == PreferredBufferSize <==> minSize <= PreferredBufferSize
    ensures minSize > PreferredBufferSize ==> r <= 2 * minSize + 2 * SamplesPerFrame
    ensures minSize > PreferredBufferSize ==> r / 2 - SamplesPerFrame <= minSize < r / 2
  {
    if PreferredBufferSize < minSize then
      UpsizedBounds(minSize);
      ((minSize / SamplesPerFrame) + 1) * SamplesPerFrame * 2
    else
      PreferredBufferSize
  }

  /** Bounds on the rounded-up size, from Euclidean division by a frame. */
  lemma UpsizedBounds(m: nat)
    ensures var u := ((m / SamplesPerFrame) + 1) * SamplesPerFrame * 2;
            && m < u && u <= 2 * m + 2 * SamplesPerFrame && u % (2 * SamplesPerFrame) == 0
            && u / 2 - SamplesPerFrame <= m < u / 2
  {
    var q := m / SamplesPerFrame;
    assert m == q * SamplesPerFrame + m % SamplesPerFrame;
    assert q * SamplesPerFrame <= m < (q + 1) * SamplesPerFrame;
    assert ((q + 1) * SamplesPerFrame * 2) == (q + 1) * (2 * SamplesPerFrame);
  }

  /** The frame count passed to AudioRecord::set: half the byte size. */
  function CaptureFrameCount(minSize: nat): (r: nat)
    ensures 2 * r >= minSize
    ensures r % SamplesPerFrame == 0
    ensures r >= PreferredBufferSize / 2
    ensures minSize <= PreferredBufferSize ==> r == PreferredBufferSize / 2
    ensures minSize > PreferredBufferSize ==> r - SamplesPerFrame <= minSize < r
  {
    CaptureBufferSize(minSize) / 2
  }
}

=== FILE: command_line.dfy ===
/**
 * The command-line side of the recorder: the `WIDTHxHEIGHT` parser built on
 * a model of base-10 `strtol`, and the range checks `main` applies to each
 * option before recording starts. Option scanning itself (getopt_long) is
 * abstracted: the options arrive already split into a sequence.
 */
module CommandLine {
  import opened Wrappers
  import opened Status
  import opened Geometry

  /* ---------------------------------------------------------------------
   * Decimal numbers
   * ------------------------------------------------------------------- */

  predicate IsDigit(c: char) {
    '0' <= c <= '9'
  }

  /** C `isspace` in the "C" locale: space, \t, \n, \v, \f and \r. */
  predicate IsSpace(c: char) {
    c == ' ' || '\t' <= c <= '\r'
  }

  /** A digit (`digits`) or white space (otherwise). */
  predicate OfKind(c: char, digits: bool) {
    if digits then IsDigit(c) else IsSpace(c)
  }

  /** Every character of `s` is of the kind. */
  predicate AllOfKind(s: string, digits: bool) {
    forall i :: 0 <= i < |s| ==> OfKind(s[i], digits)
  }

  predicate AllDigits(s: string) {
    AllOfKind(s, true)
  }

  /** The value of a string of decimal digits, most significant first. */
  function DecimalValue(s: string): (r: nat)
    requires AllDigits(s)
    decreases |s|
  {
    if |s| == 0 then 0
    else 10 * DecimalValue(s[..|s| - 1]) + (s[|s| - 1] as int - '0' as int)
  }

  /** The shortest decimal spelling of `n`, the reference inverse of `DecimalValue`. */
  function DecimalString(n: nat): (r: string)
    ensures AllDigits(r) && |r| > 0
    ensures DecimalValue(r) == n
    decreases n
  {
    var last := [('0' as int + n % 10) as char];
    if n < 10 then last
    else
      var r := DecimalString(n / 10) + last;
      assert r[..|r| - 1] == DecimalString(n / 10);
      r
  }

  /** Length of the run of characters of the kind at the front of `s`. */
  function LeadingRun(s: string, digits: bool): (r: nat)
    ensures r <= |s|
    ensures r > 0 ==> OfKind(s[r - 1], digits)
    ensures r < |s| ==> !OfKind(s[r], digits)
    decreases |s|
  {
    if |s| > 0 && OfKind(s[0], digits) then 1 + LeadingRun(s[1..], digits)
    else 0
  }

  /** The run `LeadingRun` measures is all of the kind. */
  lemma {:induction false} RunIsOfKind(s: string, digits: bool)
    ensures AllOfKind(s[..LeadingRun(s, digits)], digits)
    decreases |s|
  {
    if |s| > 0 && OfKind(s[0], digits) {
      RunIsOfKind(s[1..], digits);
      var n := LeadingRun(s, digits);
      forall i | 0 <= i < n
        ensures OfKind(s[..n][i], digits)
      {
        if i > 0 {
          assert s[..n][i] == s[1..][..n - 1][i - 1];
        }
      }
    }
  }

  /** What `strtol(s, &end, 10)` yields: the value and the offset of `end`. */
  datatype Parsed = Parsed(value: int, end: nat)

  /**
   * Base-10 `strtol`: optional leading white space, an optional sign, then
   * the longest run of digits. When there are no digits, `end` is left at
   * the start of the string and the value is 0. The clamp to LONG_MIN and
   * LONG_MAX on overflow is not modelled.
   */
  function StrToL(s: string): (r: Parsed)
    ensures r.end <= |s|
    ensures r.end == 0 ==> r.value == 0
    ensures r.end > 0 ==> IsDigit(s[r.end - 1]) && (r.end == |s| || !IsDigit(s[r.end]))
  {
    var i := LeadingRun(s, false);
    var signed := i < |s| && (s[i] == '-' || s[i] == '+');
    var j := if signed then i + 1 else i;
    var m := Magnitude(s[j..]);
    if m.end == 0 then Parsed(0, 0)
    else Parsed(if signed && s[i] == '-' then -m.value else m.value, j + m.end)
  }

  /** The unsigned part of `strtol`: the longest run of digits at the front. */
  function Magnitude(u: string): (r: Parsed)
    ensures r.end <= |u| && r.value >= 0
    ensures r.end == 0 ==> r.value == 0
    ensures r.end > 0 ==> IsDigit(u[r.end - 1]) && (r.end == |u| || !IsDigit(u[r.end]))
  {
    var n := LeadingRun(u, true);
    if n == 0 then Parsed(0, 0)
    else
      RunIsOfKind(u, true);
      Parsed(DecimalValue(u[..n]), n)
  }

  /** A run followed by anything that does not continue it is taken whole. */
  lemma {:induction false} RunStops(p: string, t: string, digits: bool)
    requires AllOfKind(p, digits)
    requires t == [] || !OfKind(t[0], digits)
    ensures LeadingRun(p + t, digits) == |p|
    decreases |p|
  {
    if |p| > 0 {
      assert (p + t)[1..] == p[1..] + t;
      RunStops(p[1..], t, digits);
    } else {
      assert p + t == t;
    }
  }

  lemma StrToLDigits(d: string, t: string)
    requires AllDigits(d) && |d| > 0
    requires t == [] || !IsDigit(t[0])
    ensures StrToL(d + t) == Parsed(DecimalValue(d), |d|)
  {
    var s := d + t;
    assert s[0..|d|] == d;
    assert |d| < |s| ==> s[|d|] == t[0];
    StrToLSpans(s, 0, 0, |d|);
  }

  /** A sign `strtol` accepts before the digits, or none. */
  predicate SignText(sg: string) {
    |sg| == 0 || (|sg| == 1 && (sg[0] == '+' || sg[0] == '-'))
  }

  /** The sign is a minus. */
  predicate Minus(sg: string) {
    |sg| == 1 && sg[0] == '-'
  }

  /**
   * White space, an optional sign and a run of digits that nothing continues
   * are read as the signed value of the digits, ending after the last digit.
   */
  lemma StrToLSigned(ws: string, sg: string, d: string, t: string)
    requires AllOfKind(ws, false) && SignText(sg)
    requires AllDigits(d) && |d| > 0
    requires t == [] || !IsDigit(t[0])
    ensures StrToL(ws + sg + d + t)
            == Parsed(if Minus(sg) then -(DecimalValue(d) as int) else DecimalValue(d), |ws| + |sg| + |d|)
  {
    Regroup(ws, sg, d, t);
    StrToLSpans(ws + sg + d + t, |ws|, |ws| + |sg|, |ws| + |sg| + |d|);
  }

  /**
   * `StrToLSigned` on positions: white space up to `i`, a sign at `i` when
   * `j` is one past it, and digits from `j` up to `k`.
   */
  lemma StrToLSpans(s: string, i: nat, j: nat, k: nat)
    requires i <= j <= i + 1 && j < k <= |s|
    requires AllOfKind(s[..i], false)
    requires j == i + 1 ==> s[i] == '+' || s[i] == '-'
    requires AllDigits(s[j..k])
    requires k == |s| || !IsDigit(s[k])
    ensures StrToL(s) == Parsed(if j == i + 1 && s[i] == '-' then -(DecimalValue(s[j..k]) as int)
                                else DecimalValue(s[j..k]), k)
  {
    assert IsDigit(s[j]) by {
      assert s[j..k][0] == s[j];
    }
    SpacesUpTo(s, i);
    DigitsBetween(s, j, k);
    StrToLAt(s, i, j, Parsed(DecimalValue(s[j..k]), k - j));
  }

  /** White space up to `i` and none at `i` is the run `strtol` skips. */
  lemma SpacesUpTo(s: string, i: nat)
    requires i < |s| && AllOfKind(s[..i], false) && !IsSpace(s[i])
    ensures LeadingRun(s, false) == i
  {
    assert s == s[..i] + s[i..];
    assert s[i..][0] == s[i];
    RunStops(s[..i], s[i..], false);
  }

  /** Digits from `j` up to `k` and none at `k` are the magnitude `strtol` reads. */
  lemma DigitsBetween(s: string, j: nat, k: nat)
    requires j < k <= |s| && AllDigits(s[j..k]) && (k == |s| || !IsDigit(s[k]))
    ensures Magnitude(s[j..]) == Parsed(DecimalValue(s[j..k]), k - j)
  {
    assert s[j..] == s[j..k] + s[k..];
    assert k < |s| ==> s[k..][0] == s[k];
    MagnitudeAt(s, j, s[j..k], s[k..]);
  }

  /** Where the parts of `ws + sg + d + t` sit in the whole. */
  lemma Regroup(ws: string, sg: string, d: string, t: string)
    ensures var s := ws + sg + d + t;
      && s[..|ws|] == ws
      && s[|ws| + |sg|..|ws| + |sg| + |d|] == d
      && (|t| > 0 ==> s[|ws| + |sg| + |d|] == t[0])
      && (|sg| > 0 ==> s[|ws|] == sg[0])
  {
  }

  /** `StrToL` from the white-space run, the sign and the magnitude it finds. */
  lemma StrToLAt(s: string, i: nat, j: nat, m: Parsed)
    requires LeadingRun(s, false) == i
    requires i <= j <= i + 1 && j <= |s|
    requires (j == i + 1) == (i < |s| && (s[i] == '-' || s[i] == '+'))
    requires Magnitude(s[j..]) == m && m.end > 0
    ensures StrToL(s) == Parsed(if j == i + 1 && s[i] == '-' then -m.value else m.value, j + m.end)
  {
    assert (if i < |s| && (s[i] == '-' || s[i] == '+') then i + 1 else i) == j;
  }

  lemma MagnitudeAt(s: string, j: nat, d: string, t: string)
    requires j <= |s| && s[j..] == d + t
    requires AllDigits(d) && |d| > 0
    requires t == [] || !IsDigit(t[0])
    ensures Magnitude(s[j..]) == Parsed(DecimalValue(d), |d|)
  {
    MagnitudeStops(d, t);
  }

  /** A run of digits that nothing continues is read whole. */
  lemma MagnitudeStops(d: string, t: string)
    requires AllDigits(d) && |d| > 0
    requires t == [] || !IsDigit(t[0])
    ensures Magnitude(d + t) == Parsed(DecimalValue(d), |d|)
  {
    RunStops(d, t, true);
    assert (d + t)[..|d|] == d;
  }

  /**
   * White space and an optional sign with no digit after them are not a
   * number: `strtol` reports 0 and leaves the end at the start of the string.
   */
  lemma StrToLNoDigits(ws: string, sg: string, t: string)
    requires AllOfKind(ws, false) && SignText(sg)
    requires t == [] || !IsDigit(t[0])
    requires |sg| == 0 && t != [] ==> !IsSpace(t[0]) && t[0] != '+' && t[0] != '-'
    ensures StrToL(ws + sg + t) == Parsed(0, 0)
  {
    var s := ws + sg + t;
    assert LeadingRun(s, false) == |ws| by {
      assert s == ws + (sg + t);
      RunStops(ws, sg + t, false);
    }
    var j := |ws| + |sg|;
    assert s[j..] == t;
  }

  /* ---------------------------------------------------------------------
   * WIDTHxHEIGHT
   * ------------------------------------------------------------------- */

  /** The two `long` values `parseWidthHeight` stores on success. */
  datatype Dimensions = Dimensions(width: int, height: int)

  /**
   * `parseWidthHeight`: a width read by `strtol`, the character `x`, and a
   * height read by `strtol` that must reach the end of the string.
   */
  function ParseWidthHeight(s: string): (r: Option<Dimensions>)
    ensures StrToL(s).end == 0 ==> r.None?
    ensures StrToL(s).end == |s| ==> r.None?
    ensures 0 < StrToL(s).end < |s| && s[StrToL(s).end] != 'x' ==> r.None?
    ensures r.Some? ==> StrToL(s).value == r.value.width
    ensures r.Some? ==> var k := StrToL(s).end;
              k + 1 < |s| && s[k] == 'x' && StrToL(s[k + 1..]) == Parsed(r.value.height, |s| - k - 1)
  {
    var w := StrToL(s);
    if w.end == 0 || w.end == |s| || s[w.end] != 'x' || w.end + 1 == |s| then None
    else
      var rest := s[w.end + 1..];
      var h := StrToL(rest);
      if h.end != |rest| then None
      else Some(Dimensions(w.value, h.value))
  }

  /** Two digit strings joined by `x` parse to their values. */
  lemma ParseDigitStrings(w: string, h: string)
    requires AllDigits(w) && |w| > 0
    requires AllDigits(h) && |h| > 0
    ensures ParseWidthHeight(w + "x" + h) == Some(Dimensions(DecimalValue(w), DecimalValue(h)))
  {
    var s := w + "x" + h;
    WidthOfDigits(w, h);
    HeightOfDigits(w, h);
    ParseAccepts(s, |w|, DecimalValue(w), DecimalValue(h));
  }

  lemma WidthOfDigits(w: string, h: string)
    requires AllDigits(w) && |w| > 0
    ensures StrToL(w + "x" + h) == Parsed(DecimalValue(w), |w|)
  {
    assert w + "x" + h == w + ("x" + h);
    StrToLDigits(w, "x" + h);
  }

  lemma HeightOfDigits(w: string, h: string)
    requires AllDigits(h) && |h| > 0
    ensures var s := w + "x" + h;
      s[|w|] == 'x' && |w| + 1 < |s| && StrToL(s[|w| + 1..]) == Parsed(DecimalValue(h), |h|)
  {
    assert (w + "x" + h)[|w| + 1..] == h;
    StrToLWhole(h);
  }

  /** A string of digits alone is read whole. */
  lemma StrToLWhole(d: string)
    requires AllDigits(d) && |d| > 0
    ensures StrToL(d) == Parsed(DecimalValue(d), |d|)
  {
    StrToLDigits(d, []);
    assert d + [] == d;
  }

  /** The accepting path of `parseWidthHeight`, as a single step. */
  lemma ParseAccepts(s: string, k: nat, width: int, height: int)
    requires StrToL(s) == Parsed(width, k) && 0 < k && k + 1 < |s| && s[k] == 'x'
    requires StrToL(s[k + 1..]) == Parsed(height, |s| - k - 1)
    ensures ParseWidthHeight(s) == Some(Dimensions(width, height))
  {
  }

  /**
   * One more than LONG_MAX for a 64-bit `long`: `strtol` clamps larger
   * values, which `StrToL` does not model, so a round trip through it is
   * stated only below this bound.
   */
  const LongLimit: nat := 0x8000_0000_0000_0000

  /** Formatting a size and parsing it back gives the size. */
  lemma FormatThenParse(width: nat, height: nat)
    requires width < LongLimit && height < LongLimit
    ensures ParseWidthHeight(DecimalString(width) + "x" + DecimalString(height))
            == Some(Dimensions(width, height))
  {
    ParseDigitStrings(DecimalString(width), DecimalString(height));
  }

  /** A width with nothing after its `x` is rejected. */
  lemma RejectMissingHeight(w: string)
    requires AllDigits(w) && |w| > 0
    ensures ParseWidthHeight(w + "x") == None
  {
    StrToLDigits(w, "x");
  }

  /** A width followed by anything but `x` is rejected. */
  lemma RejectMissingSeparator(w: string, t: string)
    requires AllDigits(w) && |w| > 0
    requires t == [] || (!IsDigit(t[0]) && t[0] != 'x')
    ensures ParseWidthHeight(w + t) == None
  {
    StrToLDigits(w, t);
    if t != [] {
      assert (w + t)[|w|] == t[0];
    }
  }

  /** Characters after the height, other than more digits, are rejected. */
  lemma RejectTrailing(w: string, h: string, t: string)
    requires AllDigits(w) && |w| > 0
    requires AllDigits(h) && |h| > 0
    requires |t| > 0 && !IsDigit(t[0])
    ensures ParseWidthHeight(w + "x" + h + t) == None
  {
    var s := w + "x" + h + t;
    assert s == w + ("x" + h + t);
    StrToLDigits(w, "x" + h + t);
    assert s[|w|] == 'x';
    assert s[|w| + 1..] == h + t;
    StrToLDigits(h, t);
  }

  /* ---------------------------------------------------------------------
   * Options of `main`
   * ------------------------------------------------------------------- */

  const MinBitRate: nat := 100000
  const MaxBitRate: nat := 100 * 1000000
  const MaxTimeLimitSec: nat := 180
  const DefaultBitRate: nat := 4000000

  /** `main` returns 2 for every rejected command line. */
  const UsageError: int := 2

  /**
   * One option as getopt_long delivers it. The numeric options carry the
   * `int` that `atoi` made of their argument.
   */
  datatype Opt =
    | Help
    | Verbose
    | SizeOpt(text: string)
    | BitRateOpt(value: int)
    | TimeLimitOpt(value: int)
    | RotateOpt
    | AudioOpt
    | Unrecognized

  /**
   * The settings the options leave behind. `verbose` only mirrors the
   * `--verbose` flag: it selects diagnostic printing, which is not modelled,
   * and no modelled decision reads it.
   */
  datatype Settings = Settings(
    size: Size,
    sizeSpecified: bool,
    bitRate: nat,
    timeLimitSec: nat,
    rotate: bool,
    recordAudio: bool,
    verbose: bool)

  datatype Command = ShowUsage | Reject(status: int) | Record(settings: Settings)

  function Defaults(): Settings {
    Settings(Size(0, 0), false, DefaultBitRate, MaxTimeLimitSec, false, false, false)
  }

  /** The settings `recordScreen` may rely on once `main` has accepted them. */
  predicate Admissible(s: Settings) {
    && MinBitRate <= s.bitRate <= MaxBitRate
    && 1 <= s.timeLimitSec <= MaxTimeLimitSec
    && s.size.width < U32Modulus && s.size.height < U32Modulus
    && (s.sizeSpecified ==> s.size.width > 0 && s.size.height > 0)
    && (!s.sizeSpecified ==> s.size == Size(0, 0))
  }

  /** `--size`: parse, store as `uint32_t`, and refuse a zero dimension. */
  function SizeOption(text: string): (r: Option<Size>)
    ensures r.Some? ==> 0 < r.value.width < U32Modulus && 0 < r.value.height < U32Modulus
    ensures ParseWidthHeight(text).None? ==> r.None?
    ensures ParseWidthHeight(text).Some? ==>
              var d := ParseWidthHeight(text).value;
              && (r.Some? <==> ToU32(d.width) != 0 && ToU32(d.height) != 0)
              && (r.Some? ==> r.value == Size(ToU32(d.width), ToU32(d.height)))
  {
    match ParseWidthHeight(text)
    case None => None
    case Some(d) =>
      var size := Size(ToU32(d.width), ToU32(d.height));
      if size.width == 0 || size.height == 0 then None else Some(size)
  }

  /** A size written in plain digits within `uint32_t` range is accepted as written. */
  lemma SizeOptionDigits(width: nat, height: nat)
    requires 0 < width < U32Modulus && 0 < height < U32Modulus
    ensures SizeOption(DecimalString(width) + "x" + DecimalString(height)) == Some(Size(width, height))
  {
    FormatThenParse(width, height);
  }

  /** `--bit-rate`: the `atoi` value, stored as `uint32_t`, must lie in range. */
  function BitRateAccepted(value: int): (r: bool)
    ensures -0x8000_0000 <= value < 0x8000_0000 ==> (r <==> MinBitRate <= value <= MaxBitRate)
  {
    var rate := ToU32(value);
    !(rate < MinBitRate || rate > MaxBitRate)
  }

  /** `--time-limit`: the `atoi` value, stored as `uint32_t`, must be 1..180. */
  function TimeLimitAccepted(value: int): (r: bool)
    ensures -0x8000_0000 <= value < 0x8000_0000 ==> (r <==> 1 <= value <= MaxTimeLimitSec)
  {
    var limit := ToU32(value);
    !(limit == 0 || limit > MaxTimeLimitSec)
  }

  /**
   * An option `main` lets through without stopping: every option but an
   * unrecognised one or a value its range check refuses. `--help` is valid
   * but ends the loop.
   */
  predicate OptionValid(o: Opt) {
    match o
    case SizeOpt(text) => SizeOption(text).Some?
    case BitRateOpt(v) => BitRateAccepted(v)
    case TimeLimitOpt(v) => TimeLimitAccepted(v)
    case Unrecognized => false
    case _ => true
  }

  /** Whether `a` and `b` set the same field of the settings. */
  predicate SameField(a: Opt, b: Opt) {
    || (a.SizeOpt? && b.SizeOpt?)
    || (a.BitRateOpt? && b.BitRateOpt?)
    || (a.TimeLimitOpt? && b.TimeLimitOpt?)
  }

  /** `opts[i]` is the last option to set its field: later ones overwrite earlier ones. */
  predicate LastSetter(opts: seq<Opt>, i: int) {
    0 <= i < |opts| && forall j :: i < j < |opts| ==> !SameField(opts[i], opts[j])
  }

  /** The field a valid option other than `--help` sets. */
  function Apply(o: Opt, s: Settings): (r: Settings)
    requires OptionValid(o) && !o.Help?
    requires Admissible(s)
    ensures Admissible(r)
    ensures r.bitRate == (if o.BitRateOpt? then ToU32(o.value) else s.bitRate)
    ensures r.timeLimitSec == (if o.TimeLimitOpt? then ToU32(o.value) else s.timeLimitSec)
    ensures Some(r.size) == (if o.SizeOpt? then SizeOption(o.text) else Some(s.size))
    ensures r.recordAudio == (s.recordAudio || o.AudioOpt?)
    ensures r.rotate == (s.rotate || o.RotateOpt?)
    ensures r.sizeSpecified == (s.sizeSpecified || o.SizeOpt?)
  {
    match o
    case Verbose => s.(verbose := true)
    case SizeOpt(text) => s.(size := SizeOption(text).value, sizeSpecified := true)
    case BitRateOpt(v) => s.(bitRate := ToU32(v))
    case TimeLimitOpt(v) => s.(timeLimitSec := ToU32(v))
    case RotateOpt => s.(rotate := true)
    case AudioOpt => s.(recordAudio := true)
  }

  /**
   * The option loop of `main`, from the current settings onwards: `--help`
   * prints the usage and stops, an option that fails its check stops with
   * status 2, and any other option sets its field.
   */
  function ApplyOptions(opts: seq<Opt>, s: Settings): (r: Command)
    requires Admissible(s)
    ensures r.Record? ==> Admissible(r.settings)
    ensures r.Reject? ==> r.status == UsageError
    ensures r.ShowUsage? ==> Help in opts
    ensures r.Record? ==> Unrecognized !in opts && Help !in opts
    ensures r.Record? ==> (r.settings.recordAudio <==> s.recordAudio || AudioOpt in opts)
    ensures r.Record? ==> (r.settings.rotate <==> s.rotate || RotateOpt in opts)
    ensures r.Record? ==> (r.settings.sizeSpecified <==> s.sizeSpecified || exists i :: 0 <= i < |opts| && opts[i].SizeOpt?)
    decreases |opts|
  {
    if |opts| == 0 then Record(s)
    else if opts[0].Help? then ShowUsage
    else if !OptionValid(opts[0]) then Reject(UsageError)
    else ApplyOptions(opts[1..], Apply(opts[0], s))
  }

  /** Every option passes its check and none asks for help. */
  predicate AllPass(opts: seq<Opt>) {
    forall i :: 0 <= i < |opts| ==> OptionValid(opts[i]) && !opts[i].Help?
  }

  /** A `--help` comes before any option that fails its check. */
  predicate HelpFirst(opts: seq<Opt>) {
    exists i :: 0 <= i < |opts| && opts[i].Help? && forall j :: 0 <= j < i ==> OptionValid(opts[j])
  }

  /** `AllPass` and `HelpFirst` of a non-empty list, from its head and its tail. */
  lemma PassCons(opts: seq<Opt>)
    requires |opts| > 0
    ensures AllPass(opts) <==> OptionValid(opts[0]) && !opts[0].Help? && AllPass(opts[1..])
    ensures HelpFirst(opts) <==> opts[0].Help? || (OptionValid(opts[0]) && HelpFirst(opts[1..]))
  {
    AllPassCons(opts);
    HelpFirstCons(opts);
  }

  lemma AllPassCons(opts: seq<Opt>)
    requires |opts| > 0
    ensures AllPass(opts) <==> OptionValid(opts[0]) && !opts[0].Help? && AllPass(opts[1..])
  {
    var rest := opts[1..];
    assert forall i :: 0 <= i < |rest| ==> rest[i] == opts[i + 1];
  }

  lemma HelpFirstCons(opts: seq<Opt>)
    requires |opts| > 0
    ensures HelpFirst(opts) <==> opts[0].Help? || (OptionValid(opts[0]) && HelpFirst(opts[1..]))
  {
    var rest := opts[1..];
    if HelpFirst(opts) && !opts[0].Help? {
      var i :| 0 <= i < |opts| && opts[i].Help? && forall j :: 0 <= j < i ==> OptionValid(opts[j]);
      assert rest[i - 1].Help? && forall j :: 0 <= j < i - 1 ==> OptionValid(rest[j]) by {
        assert forall j :: 0 <= j < i - 1 ==> rest[j] == opts[j + 1];
      }
    }
    if OptionValid(opts[0]) && HelpFirst(rest) {
      var i :| 0 <= i < |rest| && rest[i].Help? && forall j :: 0 <= j < i ==> OptionValid(rest[j]);
      assert opts[i + 1].Help? && forall j :: 0 <= j < i + 1 ==> OptionValid(opts[j]) by {
        assert forall j :: 1 <= j < i + 1 ==> opts[j] == rest[j - 1];
      }
    }
    if opts[0].Help? {
      assert OptionValid(opts[0]);
    }
  }

  /**
   * How the option loop ends: it records exactly when every option passes
   * its check and none asks for help, and shows the usage exactly when a
   * `--help` comes before any option that fails.
   */
  lemma {:induction false} ApplyOptionsOutcome(opts: seq<Opt>, s: Settings)
    requires Admissible(s)
    ensures ApplyOptions(opts, s).Record? <==> AllPass(opts)
    ensures ApplyOptions(opts, s).ShowUsage? <==> HelpFirst(opts)
    decreases |opts|
  {
    if |opts| > 0 {
      PassCons(opts);
      if !opts[0].Help? && OptionValid(opts[0]) {
        ApplyOptionsOutcome(opts[1..], Apply(opts[0], s));
      }
    }
  }

  /**
   * `main` up to the point where it opens the output file: the options, then
   * exactly one remaining argument, the file name.
   */
  function ParseCommandLine(opts: seq<Opt>, remaining: nat): (r: Command)
    ensures r.Record? ==> Admissible(r.settings) && remaining == 1
    ensures r.Reject? ==> r.status == UsageError
    ensures r.Record? ==> (r.settings.recordAudio <==> AudioOpt in opts)
    ensures r.Record? ==> (r.settings.rotate <==> RotateOpt in opts)
    ensures r.ShowUsage? ==> Help in opts
    ensures r.Record? ==> (r.settings.sizeSpecified <==> exists i :: 0 <= i < |opts| && opts[i].SizeOpt?)
  {
    match ApplyOptions(opts, Defaults())
    case Record(s) => if remaining != 1 then Reject(UsageError) else Record(s)
    case other => other
  }

  /**
   * The values `main` records are those of the last option to set each
   * field, converted as the code converts them, or the starting values when
   * no option sets the field.
   */
  lemma {:induction false} ApplyOptionsStores(opts: seq<Opt>, s: Settings)
    requires Admissible(s)
    requires ApplyOptions(opts, s).Record?
    ensures var t := ApplyOptions(opts, s).settings;
      && (forall i :: LastSetter(opts, i) && opts[i].BitRateOpt? ==> t.bitRate == ToU32(opts[i].value))
      && (forall i :: LastSetter(opts, i) && opts[i].TimeLimitOpt? ==> t.timeLimitSec == ToU32(opts[i].value))
      && (forall i :: LastSetter(opts, i) && opts[i].SizeOpt? ==> Some(t.size) == SizeOption(opts[i].text))
      && ((forall i :: 0 <= i < |opts| ==> !opts[i].BitRateOpt?) ==> t.bitRate == s.bitRate)
      && ((forall i :: 0 <= i < |opts| ==> !opts[i].TimeLimitOpt?) ==> t.timeLimitSec == s.timeLimitSec)
      && ((forall i :: 0 <= i < |opts| ==> !opts[i].SizeOpt?) ==> t.size == s.size)
    decreases |opts|
  {
    if |opts| > 0 {
      var rest := opts[1..];
      assert forall i :: 0 <= i < |rest| ==> rest[i] == opts[i + 1];
      ApplyOptionsStores(rest, Apply(opts[0], s));
      forall i | LastSetter(opts, i) && i > 0
        ensures LastSetter(rest, i - 1)
      {
      }
    }
  }

  /**
   * `main` goes on to record exactly when every option passes its check, none
   * asks for help, and one argument, the output file, remains.
   */
  lemma CommandLineOutcome(opts: seq<Opt>, remaining: nat)
    ensures ParseCommandLine(opts, remaining).Record? <==> remaining == 1 && AllPass(opts)
    ensures ParseCommandLine(opts, remaining).ShowUsage? <==> HelpFirst(opts)
  {
    ApplyOptionsOutcome(opts, Defaults());
  }

  /** The command line `main` records under, with the defaults it starts from. */
  lemma CommandLineStores(opts: seq<Opt>, remaining: nat)
    requires ParseCommandLine(opts, remaining).Record?
    ensures var t := ParseCommandLine(opts, remaining).settings;
      && (forall i :: LastSetter(opts, i) && opts[i].BitRateOpt? ==> t.bitRate == ToU32(opts[i].value))
      && (forall i :: LastSetter(opts, i) && opts[i].TimeLimitOpt? ==> t.timeLimitSec == ToU32(opts[i].value))
      && (forall i :: LastSetter(opts, i) && opts[i].SizeOpt? ==> Some(t.size) == SizeOption(opts[i].text))
      && ((forall i :: 0 <= i < |opts| ==> !opts[i].BitRateOpt?) ==> t.bitRate == DefaultBitRate)
      && ((forall i :: 0 <= i < |opts| ==> !opts[i].TimeLimitOpt?) ==> t.timeLimitSec == MaxTimeLimitSec)
      && ((forall i :: 0 <= i < |opts| ==> !opts[i].SizeOpt?) ==> t.size == Size(0, 0))
  {
    ApplyOptionsStores(opts, Defaults());
  }
}

=== FILE: encoder_loop.dfy ===
/**
 * The encode-and-mux loop of `runEncoder`, as a deterministic step
 * function over per-iteration inputs.
 *
 * Each iteration reads the stop flag and the monotonic clock, polls the
 * video encoder once and, when audio is recorded, the audio encoder once,
 * and forwards what they produce to the muxer. Everything the codecs, the
 * muxer and the clock answer arrives as a `Tick`; everything the loop asks
 * of them is recorded, at the moment it is asked and whatever the answer,
 * as an `Action` in a trace.
 */
module EncoderLoop {
  import opened Status
  import opened AudioSizing

  datatype Stream = Video | Audio

  /** The outcome of one `dequeueOutputBuffer` call. */
  datatype Dequeue =
    | Buffer(index: nat, size: nat, pts: int, flags: Flags)
    | TryAgain
    | FormatChanged
    | BuffersChanged
    | InvalidOp
    | Other(code: UnknownCode)

  /** The status code a dequeue outcome is reported with. */
  function StatusOf(d: Dequeue): int {
    match d
    case Buffer(_, _, _, _) => NoError
    case TryAgain => TryAgainLater
    case FormatChanged => InfoFormatChanged
    case BuffersChanged => InfoOutputBuffersChanged
    case InvalidOp => InvalidOperation
    case Other(code) => code
  }

  /**
   * The `switch (err)` of `runEncoder`: a status code and the out-parameters
   * of `dequeueOutputBuffer`, as a dequeue outcome.
   */
  function Classify(status: int, index: nat, size: nat, pts: int, flags: Flags): (d: Dequeue)
    ensures StatusOf(d) == status
    ensures d.Buffer? <==> status == NoError
    ensures d.Buffer? ==> d == Buffer(index, size, pts, flags)
    ensures d.Other? <==> !Recognized(status)
  {
    if status == NoError then Buffer(index, size, pts, flags)
    else if status == TryAgainLater then TryAgain
    else if status == InfoFormatChanged then FormatChanged
    else if status == InfoOutputBuffersChanged then BuffersChanged
    else if status == InvalidOperation then InvalidOp
    else Other(status)
  }

  /** Classifying the status of an outcome gives the outcome back. */
  lemma ClassifyStatusOf(d: Dequeue, index: nat, size: nat, pts: int, flags: Flags)
    requires d.Buffer? ==> d == Buffer(index, size, pts, flags)
    ensures Classify(StatusOf(d), index, size, pts, flags) == d
  {
  }

  /** How the muxer and an encoder answer the calls one dispatch may make. */
  datatype Replies = Replies(
    trackIndex: int,     // muxer->addTrack
    startStatus: int,    // muxer->start
    writeStatus: int,    // muxer->writeSampleData
    releaseStatus: int,  // encoder->releaseOutputBuffer
    refreshStatus: int)  // encoder->getOutputBuffers

  /**
   * Everything one loop iteration observes: whether an interrupt arrived
   * since the previous check of the stop flag, the monotonic clock at the
   * deadline test and when a video timestamp is substituted, and both
   * encoders' dequeue outcomes with the replies to the follow-up calls.
   */
  datatype Tick = Tick(
    signal: bool,
    nowNs: nat,
    clockNs: nat,
    video: Dequeue,
    videoReplies: Replies,
    audio: Dequeue,
    audioReplies: Replies)

  /** A call the loop makes on the encoders, the muxer or the microphone. */
  datatype Action =
    | FetchOutputBuffers(stream: Stream)
    | FetchInputBuffers
    | ConfigureRecorder(frameCount: nat)
    | StartRecorder
    | StopRecorder
    | AddTrack(stream: Stream, track: int)
    | StartMuxer
    | Write(stream: Stream, track: int, pts: int, flags: Flags)
    | Release(stream: Stream, index: nat)
  {
    /** Whether the call belongs to audio recording. */
    predicate IsAudio() {
      match this
      case FetchOutputBuffers(s) => s == Audio
      case FetchInputBuffers => true
      case ConfigureRecorder(_) => true
      case StartRecorder => true
      case StopRecorder => true
      case AddTrack(s, _) => s == Audio
      case StartMuxer => false
      case Write(s, _, _, _) => s == Audio
      case Release(s, _) => s == Audio
    }

    /** Whether the call goes to the muxer. */
    predicate IsMuxerCall() {
      AddTrack? || StartMuxer? || Write?
    }
  }

  /** The track index `runEncoder` holds before `addTrack` assigns one. */
  const Unassigned: int := -1
  /** The fixed step, in microseconds, the loop adds to a late audio timestamp. */
  const AacFrameDurationUs: int := 23219
  /** Nanoseconds per second, for the deadline. */
  const NsPerSecond: nat := 1000000000

  /**
   * The loop's variables. `muxerStarted` is not a variable of the source;
   * it records whether `muxer->start()` has succeeded. `stopRequested` is
   * `gStopRequested` as the loop itself writes it: only `false`, before
   * the loop and on end of stream, so it is down in every state the loop
   * reaches. An interrupt reaches the loop through `Tick.signal` instead.
   */
  datatype LoopState = LoopState(
    videoTrack: int,
    audioTrack: int,
    tracksAdded: nat,
    lastAudioPts: int,
    stopRequested: bool,
    muxerStarted: bool)
  {
    function Track(s: Stream): int {
      if s == Video then videoTrack else audioTrack
    }
  }

  /** The variables as the loop is entered: the stop flag is cleared there. */
  function Initial(): LoopState {
    LoopState(Unassigned, Unassigned, 0, 0, false, false)
  }

  /** How many tracks the muxer must have before it may start. */
  function ExpectedTracks(recordAudio: bool): nat {
    if recordAudio then 2 else 1
  }

  /* ---------------------------------------------------------------------
   * Timestamps
   * ------------------------------------------------------------------- */

  /**
   * A video sample without a timestamp (pts 0) is stamped with the
   * monotonic clock in microseconds; any other timestamp is kept.
   */
  function VideoPts(pts: int, clockNs: nat): (r: int)
    ensures pts != 0 ==> r == pts
    ensures pts == 0 ==> r * 1000 <= clockNs < (r + 1) * 1000
  {
    if pts == 0 then clockNs / 1000 else pts
  }

  /**
   * An audio timestamp is clamped at zero and, if it would go back before
   * the previous audio sample, replaced by that sample's time plus one AAC
   * frame.
   */
  function AudioPts(last: int, pts: int): (r: int)
    ensures r >= 0 && r >= last
    ensures pts >= 0 && pts >= last ==> r == pts
    ensures pts < 0 && last <= 0 ==> r == 0
    ensures (if pts < 0 then 0 else pts) < last ==> r == last + AacFrameDurationUs
  {
    var clamped := if pts < 0 then 0 else pts;
    if clamped < last then last + AacFrameDurationUs else clamped
  }

  /* ---------------------------------------------------------------------
   * One dispatch, one iteration
   * ------------------------------------------------------------------- */

  /** What a dispatch or an iteration leads to. */
  datatype Turn =
    | Next(state: LoopState, acts: seq<Action>)   // carry on
    | Stop                                         // leave the loop with NO_ERROR
    | Fail(code: int, acts: seq<Action>)          // return the error code
    | Abort(acts: seq<Action>)                    // a CHECK failed
  {
    function Actions(): seq<Action> {
      if Stop? then [] else acts
    }
  }

  /** The bytes of a buffer the muxer is to receive: none for codec config. */
  function Payload(size: nat, flags: Flags): nat {
    if HasFlag(flags, FlagCodecConfig) then 0 else size
  }

  /**
   * Handling one dequeue outcome of stream `s`. `recordAudio` only matters
   * to the video branch, which starts the muxer after one track when audio
   * is off; the audio branch always waits for two.
   */
  function Dispatch(recordAudio: bool, s: Stream, st: LoopState, d: Dequeue, rep: Replies, clockNs: nat): (r: Turn)
    ensures !r.Stop?
    ensures r.Fail? ==> r.code != NoError
    ensures d.TryAgain? ==> r == Next(st, [])
    ensures d.BuffersChanged? ==> r.Actions() == [FetchOutputBuffers(s)]
    ensures d.BuffersChanged? && rep.refreshStatus == NoError ==> r == Next(st, [FetchOutputBuffers(s)])
    ensures d.InvalidOp? ==> r == Fail(InvalidOperation, [])
    ensures d.Other? ==> r == Fail(d.code, [])
    ensures s == Video ==> forall a :: a in r.Actions() ==> !a.IsAudio()
    ensures d.FormatChanged? ==> |r.Actions()| > 0 && r.Actions()[0] == AddTrack(s, rep.trackIndex)
    ensures d.FormatChanged? ==>
              (StartMuxer in r.Actions() <==> st.tracksAdded + 1 >= (if s == Video && !recordAudio then 1 else 2))
    ensures d.FormatChanged? && r.Next? ==> r.state.Track(s) == rep.trackIndex
    // a codec-config buffer is handed back without being written
    ensures d.Buffer? && HasFlag(d.flags, FlagCodecConfig) ==> r.Actions() == [Release(s, d.index)]
    // a sample is written only when it has a payload and its track is known
    ensures forall a :: a in r.Actions() && a.Write? ==>
              d.Buffer? && Payload(d.size, d.flags) != 0 && a.stream == s && a.track == st.Track(s) != Unassigned
    ensures d.Buffer? && Payload(d.size, d.flags) != 0 && st.Track(s) == Unassigned ==> r == Abort([])
    ensures d.Buffer? && s == Video && Payload(d.size, d.flags) != 0 && st.Track(s) != Unassigned ==>
              |r.Actions()| > 0 && r.Actions()[0] == Write(Video, st.videoTrack, VideoPts(d.pts, clockNs), d.flags)
    ensures d.Buffer? && s == Audio && Payload(d.size, d.flags) != 0 && st.Track(s) != Unassigned ==>
              |r.Actions()| > 0 && r.Actions()[0] == Write(Audio, st.audioTrack, AudioPts(st.lastAudioPts, d.pts), d.flags)
    // a failed write returns at once: the buffer is not released
    ensures d.Buffer? && rep.writeStatus != NoError && r.Actions() != [] && r.Actions()[0].Write? ==>
              r == Fail(rep.writeStatus, [r.Actions()[0]])
    // a buffer that is carried on from is released exactly once, last
    ensures d.Buffer? && r.Next? ==>
              && |r.acts| > 0 && r.acts[|r.acts| - 1] == Release(s, d.index)
              && forall i :: 0 <= i < |r.acts| - 1 ==> !r.acts[i].Release?
  {
    match d
    case Buffer(index, size, pts, flags) =>
      BufferTurn(s, st, index, size, pts, flags, rep, clockNs)
    case TryAgain =>
      Next(st, [])
    case FormatChanged =>
      var added := AddTrack(s, rep.trackIndex);
      var st1 := (if s == Video then st.(videoTrack := rep.trackIndex) else st.(audioTrack := rep.trackIndex))
                 .(tracksAdded := st.tracksAdded + 1);
      var expected := if s == Video && !recordAudio then 1 else 2;
      if st1.tracksAdded >= expected then
        if rep.startStatus != NoError then Fail(rep.startStatus, [added, StartMuxer])
        else Next(st1.(muxerStarted := true), [added, StartMuxer])
      else
        Next(st1, [added])
    case BuffersChanged =>
      if rep.refreshStatus != NoError then Fail(rep.refreshStatus, [FetchOutputBuffers(s)])
      else Next(st, [FetchOutputBuffers(s)])
    case InvalidOp =>
      Fail(InvalidOperation, [])
    case Other(code) =>
      Fail(code, [])
  }

  /**
   * A dequeued buffer: a payload is written to its stream's track, with
   * its timestamp corrected, and the buffer is then released.
   */
  function BufferTurn(s: Stream, st: LoopState, index: nat, size: nat, pts: int, flags: Flags, rep: Replies, clockNs: nat): (r: Turn)
    ensures !r.Stop?
    ensures r.Fail? ==> r.code != NoError
    ensures HasFlag(flags, FlagCodecConfig) ==> r.Actions() == [Release(s, index)]
    ensures forall a :: a in r.Actions() && a.Write? ==>
              Payload(size, flags) != 0 && a.stream == s && a.track == st.Track(s) != Unassigned
    ensures Payload(size, flags) != 0 && st.Track(s) == Unassigned ==> r == Abort([])
    ensures s == Video && Payload(size, flags) != 0 && st.Track(s) != Unassigned ==>
              |r.Actions()| > 0 && r.Actions()[0] == Write(Video, st.videoTrack, VideoPts(pts, clockNs), flags)
    ensures s == Audio && Payload(size, flags) != 0 && st.Track(s) != Unassigned ==>
              |r.Actions()| > 0 && r.Actions()[0] == Write(Audio, st.audioTrack, AudioPts(st.lastAudioPts, pts), flags)
    ensures rep.writeStatus != NoError && r.Actions() != [] && r.Actions()[0].Write? ==>
              r == Fail(rep.writeStatus, [r.Actions()[0]])
    ensures r.Next? ==>
              && |r.acts| > 0 && r.acts[|r.acts| - 1] == Release(s, index)
              && forall i :: 0 <= i < |r.acts| - 1 ==> !r.acts[i].Release?
  {
    if Payload(size, flags) == 0 then
      Released(s, st, index, flags, rep, [])
    else if st.Track(s) == Unassigned then
      Abort([])
    else
      var written := if s == Video then VideoPts(pts, clockNs) else AudioPts(st.lastAudioPts, pts);
      var st1 := if s == Audio then st.(lastAudioPts := written) else st;
      var write := Write(s, st.Track(s), written, flags);
      if rep.writeStatus != NoError then Fail(rep.writeStatus, [write])
      else Released(s, st1, index, flags, rep, [write])
  }

  /**
   * How the format-change and buffers-changed cases end: a muxer that will
   * not start, or output buffers that cannot be fetched again, end the loop
   * with that call's status; otherwise the loop carries on.
   */
  lemma DispatchEnds(recordAudio: bool, s: Stream, st: LoopState, d: Dequeue, rep: Replies, clockNs: nat)
    ensures var r := Dispatch(recordAudio, s, st, d, rep, clockNs);
      && (d.FormatChanged? && StartMuxer in r.Actions() && rep.startStatus != NoError ==>
            r == Fail(rep.startStatus, [AddTrack(s, rep.trackIndex), StartMuxer]))
      && (d.FormatChanged? && StartMuxer in r.Actions() && rep.startStatus == NoError ==>
            r.Next? && r.state.muxerStarted)
      && (d.FormatChanged? && StartMuxer !in r.Actions() ==>
            r.Next? && r.acts == [AddTrack(s, rep.trackIndex)] && r.state.muxerStarted == st.muxerStarted)
      && (d.BuffersChanged? && rep.refreshStatus != NoError ==> r == Fail(rep.refreshStatus, [FetchOutputBuffers(s)]))
      && (d.Buffer? && Payload(d.size, d.flags) == 0 ==> r.Actions() == [Release(s, d.index)])
  {
  }

  /**
   * How a buffer ends a dispatch: a buffer whose payload is to be written
   * before its track is known aborts on the CHECK, and that is the only
   * abort; a buffer that reaches its release ends with the release's
   * status.
   */
  lemma DispatchBufferEnds(recordAudio: bool, s: Stream, st: LoopState, d: Dequeue, rep: Replies, clockNs: nat)
    ensures var r := Dispatch(recordAudio, s, st, d, rep, clockNs);
      && (r.Abort? <==> d.Buffer? && Payload(d.size, d.flags) != 0 && st.Track(s) == Unassigned)
      && (d.Buffer? && (Payload(d.size, d.flags) == 0 || (st.Track(s) != Unassigned && rep.writeStatus == NoError)) ==>
            && (r.Fail? <==> rep.releaseStatus != NoError)
            && (r.Fail? ==> r.code == rep.releaseStatus))
  {
  }

  /**
   * The tail of the buffer case: release the buffer; on end of stream the
   * source writes `false` into the stop flag.
   */
  function Released(s: Stream, st: LoopState, index: nat, flags: Flags, rep: Replies, acts: seq<Action>): (r: Turn)
    ensures r.Next? || r.Fail?
    ensures r.Actions() == acts + [Release(s, index)]
    ensures r.Fail? <==> rep.releaseStatus != NoError
    ensures r.Fail? ==> r.code == rep.releaseStatus
    ensures r.Next? && HasFlag(flags, FlagEndOfStream) ==> !r.state.stopRequested
    ensures r.Next? ==> r.state == st.(stopRequested := r.state.stopRequested)
  {
    var acts' := acts + [Release(s, index)];
    if rep.releaseStatus != NoError then Fail(rep.releaseStatus, acts')
    else Next(if HasFlag(flags, FlagEndOfStream) then st.(stopRequested := false) else st, acts')
  }

  /** A tick that makes the loop head leave the loop. */
  predicate ExitTick(t: Tick, deadlineNs: int) {
    t.signal || t.nowNs > deadlineNs
  }

  /**
   * One iteration: the stop flag (raised by an interrupt since the last
   * check), the strict deadline test, the video dispatch and, when audio is
   * recorded, the audio dispatch.
   */
  function Step(recordAudio: bool, deadlineNs: int, st: LoopState, t: Tick): (r: Turn)
    ensures r.Stop? <==> st.stopRequested || ExitTick(t, deadlineNs)
    ensures r.Next? ==> !r.state.stopRequested
    ensures r.Fail? ==> r.code != NoError
    ensures !recordAudio ==> forall a :: a in r.Actions() ==> !a.IsAudio()
  {
    if st.stopRequested || t.signal then Stop
    else if t.nowNs > deadlineNs then Stop
    else
      match Dispatch(recordAudio, Video, st, t.video, t.videoReplies, t.clockNs)
      case Next(st1, videoActs) =>
        if !recordAudio then Next(st1, videoActs)
        else
          (match Dispatch(recordAudio, Audio, st1, t.audio, t.audioReplies, t.clockNs)
           case Next(st2, audioActs) => Next(st2, videoActs + audioActs)
           case Fail(code, audioActs) => Fail(code, videoActs + audioActs)
           case Abort(audioActs) => Abort(videoActs + audioActs)
           case Stop => Stop)
      case other => other
  }

  /**
   * An iteration that runs is the video dispatch, then, if that carries on
   * and audio is recorded, the audio dispatch from the state it left.
   */
  lemma StepRunsDispatches(recordAudio: bool, deadlineNs: int, st: LoopState, t: Tick)
    requires !st.stopRequested && !ExitTick(t, deadlineNs)
    ensures var r := Step(recordAudio, deadlineNs, st, t);
            var v := Dispatch(recordAudio, Video, st, t.video, t.videoReplies, t.clockNs);
            && (!v.Next? || !recordAudio ==> r == v)
            && (v.Next? && recordAudio ==>
                  var a := Dispatch(recordAudio, Audio, v.state, t.audio, t.audioReplies, t.clockNs);
                  && r.Actions() == v.acts + a.Actions()
                  && (r.Next? <==> a.Next?) && (r.Next? ==> r.state == a.state)
                  && (r.Fail? <==> a.Fail?) && (r.Fail? ==> r.code == a.code))
  {
  }

  /* ---------------------------------------------------------------------
   * The loop and `runEncoder`
   * ------------------------------------------------------------------- */

  /** How a run ends; `Pending` when the ticks ran out with the loop still going. */
  datatype End = Stopped | Failed(code: int) | Aborted | Pending(state: LoopState)

  datatype Run = Run(end: End, trace: seq<Action>)

  /** The `while (!gStopRequested)` loop over a finite sequence of iterations. */
  function Loop(recordAudio: bool, deadlineNs: int, st: LoopState, ticks: seq<Tick>): (r: Run)
    requires !st.stopRequested
    ensures r.end.Failed? ==> r.end.code != NoError
    ensures r.end.Pending? ==> !r.end.state.stopRequested
    ensures r.end == Stopped ==> exists k :: 0 <= k < |ticks| && ExitTick(ticks[k], deadlineNs)
    ensures !recordAudio ==> forall a :: a in r.trace ==> !a.IsAudio()
    decreases |ticks|
  {
    if |ticks| == 0 then Run(Pending(st), [])
    else
      match Step(recordAudio, deadlineNs, st, ticks[0])
      case Stop => Run(Stopped, [])
      case Fail(code, acts) => Run(Failed(code), acts)
      case Abort(acts) => Run(Aborted, acts)
      case Next(st1, acts) =>
        var rest := Loop(recordAudio, deadlineNs, st1, ticks[1..]);
        assert rest.end == Stopped ==> exists k :: 1 <= k < |ticks| && ExitTick(ticks[k], deadlineNs) by {
          if rest.end == Stopped {
            var k :| 0 <= k < |ticks[1..]| && ExitTick(ticks[1..][k], deadlineNs);
            assert ticks[k + 1] == ticks[1..][k];
          }
        }
        Run(rest.end, acts + rest.trace)
  }

  /** What `runEncoder` is told before its loop starts. */
  datatype Setup = Setup(
    startNs: nat,            // the monotonic clock at entry
    videoBuffers: int,       // videoEncoder->getOutputBuffers
    audioOutputBuffers: int, // audioEncoder->getOutputBuffers
    audioInputBuffers: int,  // audioEncoder->getInputBuffers
    minFrameQuery: int,      // AudioRecord::getMinFrameCount status
    minFrameCount: nat,      //   and the count it reported
    recorderInit: int)       // audioRecorder->initCheck

  /** The deadline, fixed once at entry. */
  function Deadline(startNs: nat, timeLimitSec: nat): (r: int)
    ensures r >= startNs
    ensures timeLimitSec > 0 ==> r > startNs
  {
    startNs + timeLimitSec * NsPerSecond
  }

  /** The deadline is exactly `timeLimitSec` whole seconds after the start. */
  lemma DeadlineWholeSeconds(startNs: nat, timeLimitSec: nat)
    ensures var r := Deadline(startNs, timeLimitSec);
            (r - startNs) % NsPerSecond == 0 && (r - startNs) / NsPerSecond == timeLimitSec
  {
  }

  /**
   * The frame count the microphone is configured with (mono, PCM 16-bit):
   * whole multiples of `kSamplesPerFrame`, at least the minimum the
   * frame-count query reported, half the preferred 20480-byte buffer when
   * the query refuses the format, and 2^32 frames when it fails.
   */
  function RecorderFrames(setup: Setup): (r: nat)
    ensures r % SamplesPerFrame == 0 && r >= PreferredBufferSize / 2
    ensures setup.minFrameQuery == NoError && setup.minFrameCount < U32Modulus / 4 ==> r >= setup.minFrameCount
    ensures setup.minFrameQuery == BadValue ==> r == PreferredBufferSize / 2
    ensures setup.minFrameQuery != NoError && setup.minFrameQuery != BadValue ==> r == U32Modulus
  {
    CaptureFrameCount(MinBufferSize(setup.minFrameQuery, setup.minFrameCount, 1, FormatPcm16Bit))
  }

  /** The calls `runEncoder` makes before its loop, and the status they end with. */
  datatype Prelude = Prelude(status: int, calls: seq<Action>)

  /**
   * Fetching the encoders' buffers and, when audio is recorded, creating
   * and starting the microphone; the first failing call ends the set-up.
   */
  function SetUp(recordAudio: bool, setup: Setup): (p: Prelude)
    ensures |p.calls| > 0 && p.calls[0] == FetchOutputBuffers(Video)
    ensures forall a :: a in p.calls ==> !a.IsMuxerCall()
    ensures !recordAudio ==> p == Prelude(setup.videoBuffers, [FetchOutputBuffers(Video)])
    ensures !recordAudio ==> forall a :: a in p.calls ==> !a.IsAudio()
    ensures recordAudio && p.status == NoError ==>
              p.calls == [FetchOutputBuffers(Video), FetchOutputBuffers(Audio), FetchInputBuffers,
                          ConfigureRecorder(RecorderFrames(setup)), StartRecorder]
    // the first failing call ends the set-up with its status, after that call
    ensures setup.videoBuffers != NoError ==> p == Prelude(setup.videoBuffers, [FetchOutputBuffers(Video)])
    ensures recordAudio && setup.videoBuffers == NoError && setup.audioOutputBuffers != NoError ==>
              p == Prelude(setup.audioOutputBuffers, [FetchOutputBuffers(Video), FetchOutputBuffers(Audio)])
    ensures recordAudio && setup.videoBuffers == NoError && setup.audioOutputBuffers == NoError
            && setup.audioInputBuffers != NoError ==>
              p == Prelude(setup.audioInputBuffers, [FetchOutputBuffers(Video), FetchOutputBuffers(Audio), FetchInputBuffers])
    ensures recordAudio && setup.videoBuffers == NoError && setup.audioOutputBuffers == NoError
            && setup.audioInputBuffers == NoError && setup.recorderInit != NoError ==>
              p == Prelude(setup.recorderInit, [FetchOutputBuffers(Video), FetchOutputBuffers(Audio), FetchInputBuffers,
                                                ConfigureRecorder(RecorderFrames(setup))])
    ensures p.status == NoError <==>
              setup.videoBuffers == NoError
              && (recordAudio ==> setup.audioOutputBuffers == NoError && setup.audioInputBuffers == NoError
                                  && setup.recorderInit == NoError)
  {
    var calls := [FetchOutputBuffers(Video)];
    if setup.videoBuffers != NoError || !recordAudio then Prelude(setup.videoBuffers, calls)
    else
      var calls := calls + [FetchOutputBuffers(Audio)];
      if setup.audioOutputBuffers != NoError then Prelude(setup.audioOutputBuffers, calls)
      else
        var calls := calls + [FetchInputBuffers];
        if setup.audioInputBuffers != NoError then Prelude(setup.audioInputBuffers, calls)
        else
          var calls := calls + [ConfigureRecorder(RecorderFrames(setup))];
          if setup.recorderInit != NoError then Prelude(setup.recorderInit, calls)
          else Prelude(NoError, calls + [StartRecorder])
  }

  /** The microphone is stopped after a clean exit from the loop. */
  function Epilogue(recordAudio: bool, end: End): (calls: seq<Action>)
    ensures forall a :: a in calls ==> !a.IsMuxerCall()
    ensures !recordAudio ==> calls == []
    ensures recordAudio && end == Stopped ==> calls == [StopRecorder]
    ensures end != Stopped ==> calls == []
  {
    if recordAudio && end == Stopped then [StopRecorder] else []
  }

  /**
   * `runEncoder`: the set-up, the loop against a deadline fixed at entry,
   * and the microphone stopped after a clean exit.
   */
  function RunEncoder(recordAudio: bool, timeLimitSec: nat, setup: Setup, ticks: seq<Tick>): (r: Run)
    ensures r.end.Failed? ==> r.end.code != NoError
    ensures r.trace != [] && r.trace[0] == FetchOutputBuffers(Video)
    ensures !recordAudio ==> forall a :: a in r.trace ==> !a.IsAudio()
    ensures r.end == Stopped ==>
              exists k :: 0 <= k < |ticks| && ExitTick(ticks[k], Deadline(setup.startNs, timeLimitSec))
  {
    var prelude := SetUp(recordAudio, setup);
    if prelude.status != NoError then Run(Failed(prelude.status), prelude.calls)
    else
      var run := Loop(recordAudio, Deadline(setup.startNs, timeLimitSec), Initial(), ticks);
      Run(run.end, prelude.calls + run.trace + Epilogue(recordAudio, run.end))
  }

  /**
   * A clean exit needs a tick that brought a signal or came strictly after
   * `timeLimitSec` seconds from the start.
   */
  lemma RunEncoderStops(recordAudio: bool, timeLimitSec: nat, setup: Setup, ticks: seq<Tick>)
    ensures RunEncoder(recordAudio, timeLimitSec, setup, ticks).end == Stopped ==>
              exists k :: 0 <= k < |ticks|
                && (ticks[k].signal || ticks[k].nowNs > setup.startNs + timeLimitSec * NsPerSecond)
  {
  }

  /**
   * `runEncoder` is its set-up, then, when that succeeds, the loop against
   * the deadline and the epilogue: a set-up failure is returned with its
   * status and calls, and otherwise the run ends as the loop does.
   */
  lemma RunEncoderParts(recordAudio: bool, timeLimitSec: nat, setup: Setup, ticks: seq<Tick>)
    ensures var r := RunEncoder(recordAudio, timeLimitSec, setup, ticks);
            var prelude := SetUp(recordAudio, setup);
            && (prelude.status != NoError ==> r == Run(Failed(prelude.status), prelude.calls))
            && (prelude.status == NoError ==>
                  var run := Loop(recordAudio, Deadline(setup.startNs, timeLimitSec), Initial(), ticks);
                  && r.end == run.end
                  && r.trace == prelude.calls + run.trace + Epilogue(recordAudio, run.end))
  {
  }
}

=== FILE: geometry.dfy ===
/**
 * Integer geometry of the recorder: display rotation, the default video
 * size taken from the main display, and the width/height swaps made when
 * setting up the virtual display. The floating-point aspect-ratio fitting
 * of the projection rectangle is not modelled.
 */
module Geometry {

  /** DISPLAY_ORIENTATION_* values of the display compositor. */
  const Orientation0: int := 0
  const Orientation90: int := 1
  const Orientation180: int := 2
  const Orientation270: int := 3

  datatype Size = Size(width: nat, height: nat) {
    function Swapped(): Size {
      Size(height, width)
    }

    predicate IsPortrait() {
      width < height
    }
  }

  /** What the compositor reports about the main display. */
  datatype DisplayInfo = DisplayInfo(w: nat, h: nat, orientation: int)

  /**
   * A display is rotated when it is not in one of the two upright
   * orientations; any value outside the four known ones counts as rotated.
   */
  function IsDeviceRotated(orientation: int): (r: bool)
    ensures Orientation0 <= orientation <= Orientation270 ==> (r <==> orientation % 2 == 1)
    ensures !(Orientation0 <= orientation <= Orientation270) ==> r
  {
    orientation != Orientation0 && orientation != Orientation180
  }

  /**
   * The area of the layer stack the virtual display mirrors: the display's
   * own size, with width and height exchanged when the device is rotated.
   */
  function LayerStackSize(info: DisplayInfo): (r: Size)
    ensures multiset{r.width, r.height} == multiset{info.w, info.h}
    ensures r == Size(info.w, info.h) || r == Size(info.w, info.h).Swapped()
    ensures r == Size(info.w, info.h) <== info.orientation in {Orientation0, Orientation180}
    ensures r == Size(info.w, info.h).Swapped() <== info.orientation in {Orientation90, Orientation270}
  {
    if IsDeviceRotated(info.orientation) then Size(info.h, info.w) else Size(info.w, info.h)
  }

  /**
   * The video size `recordScreen` configures: each dimension the user left
   * at zero is taken from the display, as the display appears to the user
   * (rotated displays exchange width and height).
   */
  function DefaultVideoSize(requested: Size, info: DisplayInfo): (r: Size)
    ensures requested.width != 0 ==> r.width == requested.width
    ensures requested.height != 0 ==> r.height == requested.height
    ensures requested == Size(0, 0) ==> r == LayerStackSize(info)
    ensures requested.width == 0 ==> r.width in {info.w, info.h}
    ensures requested.height == 0 ==> r.height in {info.w, info.h}
  {
    var rotated := IsDeviceRotated(info.orientation);
    Size(if requested.width == 0 then (if rotated then info.h else info.w) else requested.width,
         if requested.height == 0 then (if rotated then info.w else info.h) else requested.height)
  }

  /**
   * The frame size the display projection is fitted into: the configured
   * video size, turned a quarter when the output is to carry a 90-degree
   * rotation hint.
   */
  function ProjectionFrame(video: Size, rotate: bool): (r: Size)
    ensures r.width * r.height == video.width * video.height
    ensures rotate ==> r.width == video.height && r.height == video.width
    ensures !rotate ==> r == video
  {
    if rotate then video.Swapped() else video
  }
}

=== FILE: loop_properties.dfy ===
/**
 * Properties of the encode-and-mux loop, stated over its action trace.
 *
 * `Observe` replays what each call tells an onlooker about the loop's
 * variables, and `Sound` is the condition each call must meet given what
 * was observed before it: a write names the track `addTrack` last gave its
 * stream, audio timestamps never go back or below zero, the muxer is
 * started only with the expected number of tracks, and, when audio is off,
 * no write precedes the start.
 */
module LoopProperties {
  import opened Status
  import opened EncoderLoop

  /* ---------------------------------------------------------------------
   * Replaying a trace
   * ------------------------------------------------------------------- */

  function Observe(st: LoopState, a: Action): LoopState {
    match a
    case AddTrack(s, t) =>
      (if s == Video then st.(videoTrack := t) else st.(audioTrack := t)).(tracksAdded := st.tracksAdded + 1)
    case StartMuxer => st.(muxerStarted := true)
    case Write(s, _, p, _) => if s == Audio then st.(lastAudioPts := p) else st
    case _ => st
  }

  function Replay(st: LoopState, acts: seq<Action>): LoopState
    decreases |acts|
  {
    if |acts| == 0 then st else Replay(Observe(st, acts[0]), acts[1..])
  }

  predicate Sound(st: LoopState, a: Action, recordAudio: bool) {
    match a
    case Write(s, t, p, _) =>
      && t != Unassigned
      && t == st.Track(s)
      && (s == Audio ==> recordAudio && 0 <= st.lastAudioPts <= p)
      && (!recordAudio ==> st.muxerStarted)
    case StartMuxer => st.tracksAdded >= ExpectedTracks(recordAudio)
    case _ => true
  }

  /** Every call of the trace is sound where it is made. */
  predicate Conforms(st: LoopState, acts: seq<Action>, recordAudio: bool)
    decreases |acts|
  {
    |acts| == 0 || (Sound(st, acts[0], recordAudio) && Conforms(Observe(st, acts[0]), acts[1..], recordAudio))
  }

  /** What the loop keeps true between iterations. */
  predicate Inv(st: LoopState, recordAudio: bool) {
    && !st.stopRequested
    && st.lastAudioPts >= 0
    && (!recordAudio ==> st.audioTrack == Unassigned && (st.videoTrack != Unassigned ==> st.muxerStarted))
  }

  lemma {:induction false} ReplayAppend(st: LoopState, a: seq<Action>, b: seq<Action>)
    ensures Replay(st, a + b) == Replay(Replay(st, a), b)
    decreases |a|
  {
    if |a| == 0 {
      assert a + b == b;
    } else {
      assert (a + b)[1..] == a[1..] + b;
      ReplayAppend(Observe(st, a[0]), a[1..], b);
    }
  }

  lemma {:induction false} ConformsAppend(st: LoopState, a: seq<Action>, b: seq<Action>, recordAudio: bool)
    ensures Conforms(st, a + b, recordAudio) <==> Conforms(st, a, recordAudio) && Conforms(Replay(st, a), b, recordAudio)
    decreases |a|
  {
    if |a| == 0 {
      assert a + b == b;
    } else {
      assert (a + b)[1..] == a[1..] + b;
      ConformsAppend(Observe(st, a[0]), a[1..], b, recordAudio);
    }
  }

  /** The call at position `i` is sound in the state replayed up to it. */
  lemma {:induction false} ConformsAt(st: LoopState, acts: seq<Action>, recordAudio: bool, i: nat)
    requires Conforms(st, acts, recordAudio)
    requires i < |acts|
    ensures Sound(Replay(st, acts[..i]), acts[i], recordAudio)
    decreases i
  {
    if i > 0 {
      ConformsAt(Observe(st, acts[0]), acts[1..], recordAudio, i - 1);
      assert acts[..i] == [acts[0]] + acts[1..][..i - 1];
      assert acts[1..][i - 1] == acts[i];
      ReplayAppend(st, [acts[0]], acts[1..][..i - 1]);
    }
  }

  /* ---------------------------------------------------------------------
   * One dispatch, one iteration, the loop
   * ------------------------------------------------------------------- */

  /**
   * A dispatch makes only sound calls and, when the loop carries on, leaves
   * exactly the variables its calls show and keeps the loop invariant.
   */
  lemma DispatchConforms(recordAudio: bool, s: Stream, st: LoopState, d: Dequeue, rep: Replies, clockNs: nat)
    requires Inv(st, recordAudio)
    requires s == Audio ==> recordAudio
    ensures var r := Dispatch(recordAudio, s, st, d, rep, clockNs);
            && Conforms(st, r.Actions(), recordAudio)
            && (r.Next? ==> r.state == Replay(st, r.acts) && Inv(r.state, recordAudio))
  {
    var r := Dispatch(recordAudio, s, st, d, rep, clockNs);
    var acts := r.Actions();
    if |acts| == 1 {
      ShortTrace(st, acts[0], acts[0], acts, recordAudio);
    } else if |acts| == 2 {
      ShortTrace(st, acts[0], acts[1], acts, recordAudio);
    }
  }

  /** Replaying and checking a trace of one or two calls. */
  lemma ShortTrace(st: LoopState, x: Action, y: Action, acts: seq<Action>, recordAudio: bool)
    requires acts == [x] || acts == [x, y]
    ensures acts == [x] ==> Replay(st, acts) == Observe(st, x)
    ensures acts == [x] ==> (Conforms(st, acts, recordAudio) <==> Sound(st, x, recordAudio))
    ensures acts == [x, y] ==> Replay(st, acts) == Observe(Observe(st, x), y)
    ensures acts == [x, y] ==>
              (Conforms(st, acts, recordAudio) <==> Sound(st, x, recordAudio) && Sound(Observe(st, x), y, recordAudio))
  {
    if acts == [x] {
      assert acts[1..] == [];
    } else {
      assert acts[1..] == [y];
      assert [y][1..] == [];
      assert Replay(st, acts) == Replay(Observe(st, x), [y]);
      assert Replay(Observe(st, x), [y]) == Replay(Observe(Observe(st, x), y), []);
      assert Conforms(st, acts, recordAudio) <==> Sound(st, x, recordAudio) && Conforms(Observe(st, x), [y], recordAudio);
      assert Conforms(Observe(st, x), [y], recordAudio) <==> Sound(Observe(st, x), y, recordAudio);
    }
  }

  lemma StepConforms(recordAudio: bool, deadlineNs: int, st: LoopState, t: Tick)
    requires Inv(st, recordAudio)
    ensures var r := Step(recordAudio, deadlineNs, st, t);
            && Conforms(st, r.Actions(), recordAudio)
            && (r.Next? ==> r.state == Replay(st, r.acts) && Inv(r.state, recordAudio))
  {
    if !st.stopRequested && !t.signal && t.nowNs <= deadlineNs {
      var v := Dispatch(recordAudio, Video, st, t.video, t.videoReplies, t.clockNs);
      DispatchConforms(recordAudio, Video, st, t.video, t.videoReplies, t.clockNs);
      if v.Next? && recordAudio {
        var a := Dispatch(recordAudio, Audio, v.state, t.audio, t.audioReplies, t.clockNs);
        DispatchConforms(recordAudio, Audio, v.state, t.audio, t.audioReplies, t.clockNs);
        ConformsAppend(st, v.acts, a.Actions(), recordAudio);
        ReplayAppend(st, v.acts, a.Actions());
      }
    }
  }

  /** The whole trace of the loop is sound, from any state meeting the invariant. */
  lemma {:induction false} LoopConforms(recordAudio: bool, deadlineNs: int, st: LoopState, ticks: seq<Tick>)
    requires Inv(st, recordAudio)
    ensures Conforms(st, Loop(recordAudio, deadlineNs, st, ticks).trace, recordAudio)
    ensures Loop(recordAudio, deadlineNs, st, ticks).end.Pending? ==>
              Loop(recordAudio, deadlineNs, st, ticks).end.state == Replay(st, Loop(recordAudio, deadlineNs, st, ticks).trace)
    decreases |ticks|
  {
    if |ticks| > 0 {
      StepConforms(recordAudio, deadlineNs, st, ticks[0]);
      var r := Step(recordAudio, deadlineNs, st, ticks[0]);
      if r.Next? {
        LoopConforms(recordAudio, deadlineNs, r.state, ticks[1..]);
        var rest := Loop(recordAudio, deadlineNs, r.state, ticks[1..]);
        ConformsAppend(st, r.acts, rest.trace, recordAudio);
        ReplayAppend(st, r.acts, rest.trace);
      }
    }
  }

  lemma InitialInv(recordAudio: bool)
    ensures Inv(Initial(), recordAudio)
  {
  }

  /** Every trace `runEncoder` produces is sound from the loop's initial state. */
  lemma RunEncoderConforms(recordAudio: bool, timeLimitSec: nat, setup: Setup, ticks: seq<Tick>)
    ensures Conforms(Initial(), RunEncoder(recordAudio, timeLimitSec, setup, ticks).trace, recordAudio)
  {
    var deadline := Deadline(setup.startNs, timeLimitSec);
    var prelude := SetUp(recordAudio, setup);
    if prelude.status == NoError {
      var run := Loop(recordAudio, deadline, Initial(), ticks);
      LoopConforms(recordAudio, deadline, Initial(), ticks);
      Bracketed(prelude.calls, run.trace, Epilogue(recordAudio, run.end), recordAudio);
    } else {
      PassiveCalls(Initial(), prelude.calls, recordAudio);
    }
  }

  /** Passive calls around a sound trace keep it sound. */
  lemma Bracketed(pre: seq<Action>, body: seq<Action>, post: seq<Action>, recordAudio: bool)
    requires forall a :: a in pre ==> !a.IsMuxerCall()
    requires forall a :: a in post ==> !a.IsMuxerCall()
    requires Conforms(Initial(), body, recordAudio)
    ensures Conforms(Initial(), pre + body + post, recordAudio)
  {
    PassiveCalls(Initial(), pre, recordAudio);
    ConformsAppend(Initial(), pre, body, recordAudio);
    PassiveCalls(Replay(Initial(), pre + body), post, recordAudio);
    ConformsAppend(Initial(), pre + body, post, recordAudio);
  }

  /** Calls that neither register, start nor write are sound and observe nothing. */
  lemma {:induction false} PassiveCalls(st: LoopState, acts: seq<Action>, recordAudio: bool)
    requires forall a :: a in acts ==> !a.IsMuxerCall()
    ensures Conforms(st, acts, recordAudio) && Replay(st, acts) == st
    decreases |acts|
  {
    if |acts| > 0 {
      assert acts[0] in acts;
      assert forall a :: a in acts[1..] ==> a in acts;
      PassiveCalls(st, acts[1..], recordAudio);
    }
  }
}

=== FILE: loop_theorems.dfy ===
/** Consequences of the loop's soundness, and two behaviours of the code as written. */
module LoopTheorems {
  import opened Status
  import opened EncoderLoop
  import opened LoopProperties

  /* ---------------------------------------------------------------------
   * Where replayed values come from
   * ------------------------------------------------------------------- */

  /** A track index that differs from the starting one was given by `addTrack`. */
  lemma {:induction false} TrackAssignedBy(st: LoopState, p: seq<Action>, s: Stream)
    requires Replay(st, p).Track(s) != st.Track(s)
    ensures exists j :: 0 <= j < |p| && p[j] == AddTrack(s, Replay(st, p).Track(s))
    decreases |p|
  {
    var st1 := Observe(st, p[0]);
    if Replay(st1, p[1..]).Track(s) != st1.Track(s) {
      TrackAssignedBy(st1, p[1..], s);
      var j :| 0 <= j < |p[1..]| && p[1..][j] == AddTrack(s, Replay(st1, p[1..]).Track(s));
      assert p[j + 1] == p[1..][j];
    } else {
      assert p[0] == AddTrack(s, Replay(st, p).Track(s));
    }
  }

  /** A started muxer that was not started before saw `start()`. */
  lemma {:induction false} StartedBy(st: LoopState, p: seq<Action>)
    requires Replay(st, p).muxerStarted && !st.muxerStarted
    ensures exists j :: 0 <= j < |p| && p[j] == StartMuxer
    decreases |p|
  {
    var st1 := Observe(st, p[0]);
    if st1.muxerStarted {
      assert p[0] == StartMuxer;
    } else {
      StartedBy(st1, p[1..]);
      var j :| 0 <= j < |p[1..]| && p[1..][j] == StartMuxer;
      assert p[j + 1] == p[1..][j];
    }
  }

  function CountAddTracks(p: seq<Action>): (n: nat)
    ensures n <= |p|
    decreases |p|
  {
    if |p| == 0 then 0 else (if p[0].AddTrack? then 1 else 0) + CountAddTracks(p[1..])
  }

  /** `tracksAdded` counts the `addTrack` calls. */
  lemma {:induction false} ReplayCounts(st: LoopState, p: seq<Action>)
    ensures Replay(st, p).tracksAdded == st.tracksAdded + CountAddTracks(p)
    decreases |p|
  {
    if |p| > 0 {
      ReplayCounts(Observe(st, p[0]), p[1..]);
    }
  }

  /** The timestamps of the audio samples written, in order. */
  function AudioStamps(p: seq<Action>): (r: seq<int>)
    ensures |r| <= |p|
    decreases |p|
  {
    if |p| == 0 then []
    else (if p[0].Write? && p[0].stream == Audio then [p[0].pts] else []) + AudioStamps(p[1..])
  }

  predicate Nondecreasing(s: seq<int>) {
    forall i, j :: 0 <= i <= j < |s| ==> s[i] <= s[j]
  }

  lemma {:induction false} ConformsStamps(st: LoopState, p: seq<Action>, recordAudio: bool)
    requires Conforms(st, p, recordAudio)
    requires st.lastAudioPts >= 0
    ensures Nondecreasing(AudioStamps(p))
    ensures forall k :: 0 <= k < |AudioStamps(p)| ==> AudioStamps(p)[k] >= st.lastAudioPts
    decreases |p|
  {
    if |p| > 0 {
      var st1 := Observe(st, p[0]);
      ConformsStamps(st1, p[1..], recordAudio);
      var rest := AudioStamps(p[1..]);
      if p[0].Write? && p[0].stream == Audio {
        assert AudioStamps(p) == [p[0].pts] + rest;
        assert st1.lastAudioPts == p[0].pts >= st.lastAudioPts;
      } else {
        assert AudioStamps(p) == rest;
        assert st1.lastAudioPts == st.lastAudioPts;
      }
    }
  }

  /* ---------------------------------------------------------------------
   * The properties of a sound trace
   * ------------------------------------------------------------------- */

  /**
   * Every sample write names a track index other than -1 that `addTrack`
   * returned for the same stream earlier in the trace.
   */
  lemma WritesFollowAddTrack(tr: seq<Action>, recordAudio: bool)
    requires Conforms(Initial(), tr, recordAudio)
    ensures forall i :: 0 <= i < |tr| && tr[i].Write? ==>
              tr[i].track != Unassigned
              && exists j :: 0 <= j < i && tr[j] == AddTrack(tr[i].stream, tr[i].track)
  {
    forall i | 0 <= i < |tr| && tr[i].Write?
      ensures tr[i].track != Unassigned
      ensures exists j :: 0 <= j < i && tr[j] == AddTrack(tr[i].stream, tr[i].track)
    {
      ConformsAt(Initial(), tr, recordAudio, i);
      TrackAssignedBy(Initial(), tr[..i], tr[i].stream);
      var j :| 0 <= j < i && tr[..i][j] == AddTrack(tr[i].stream, Replay(Initial(), tr[..i]).Track(tr[i].stream));
      assert tr[j] == tr[..i][j];
    }
  }

  /** Without audio, no sample is written before `muxer->start()` was called. */
  lemma WritesFollowStartWithoutAudio(tr: seq<Action>)
    requires Conforms(Initial(), tr, false)
    ensures forall i :: 0 <= i < |tr| && tr[i].Write? ==> exists j :: 0 <= j < i && tr[j] == StartMuxer
  {
    forall i | 0 <= i < |tr| && tr[i].Write?
      ensures exists j :: 0 <= j < i && tr[j] == StartMuxer
    {
      ConformsAt(Initial(), tr, false, i);
      StartedBy(Initial(), tr[..i]);
      var j :| 0 <= j < i && tr[..i][j] == StartMuxer;
      assert tr[j] == tr[..i][j];
    }
  }

  /** `muxer->start()` is called only once the expected number of `addTrack` calls were made. */
  lemma StartFollowsTracks(tr: seq<Action>, recordAudio: bool)
    requires Conforms(Initial(), tr, recordAudio)
    ensures forall i :: 0 <= i < |tr| && tr[i] == StartMuxer ==> CountAddTracks(tr[..i]) >= ExpectedTracks(recordAudio)
  {
    forall i | 0 <= i < |tr| && tr[i] == StartMuxer
      ensures CountAddTracks(tr[..i]) >= ExpectedTracks(recordAudio)
    {
      ConformsAt(Initial(), tr, recordAudio, i);
      ReplayCounts(Initial(), tr[..i]);
    }
  }

  /** Audio samples are written with timestamps that are never negative and never go back. */
  lemma AudioStampsNondecreasing(tr: seq<Action>, recordAudio: bool)
    requires Conforms(Initial(), tr, recordAudio)
    ensures Nondecreasing(AudioStamps(tr))
    ensures forall k :: 0 <= k < |AudioStamps(tr)| ==> AudioStamps(tr)[k] >= 0
  {
    ConformsStamps(Initial(), tr, recordAudio);
  }

  /**
   * The last audio timestamp moves only with an audio write, and then to
   * that write's timestamp.
   */
  lemma AudioClockMovesOnlyOnWrite(recordAudio: bool, st: LoopState, d: Dequeue, rep: Replies, clockNs: nat)
    requires Inv(st, recordAudio) && recordAudio
    ensures var r := Dispatch(recordAudio, Audio, st, d, rep, clockNs);
            r.Next? && r.state.lastAudioPts != st.lastAudioPts ==>
              && d.Buffer? && Payload(d.size, d.flags) != 0
              && r.acts[0] == Write(Audio, st.audioTrack, r.state.lastAudioPts, d.flags)
  {
    DispatchConforms(recordAudio, Audio, st, d, rep, clockNs);
  }

  /* ---------------------------------------------------------------------
   * Leaving the loop
   * ------------------------------------------------------------------- */

  /**
   * Running the loop over two stretches of iterations is running it over
   * the first and, if it is still going, over the second from where it got.
   * In particular nothing follows a failure, an abort or a stop.
   */
  lemma {:induction false} LoopSplit(recordAudio: bool, deadlineNs: int, st: LoopState, a: seq<Tick>, b: seq<Tick>)
    requires !st.stopRequested
    ensures var ra := Loop(recordAudio, deadlineNs, st, a);
            Loop(recordAudio, deadlineNs, st, a + b) ==
              if ra.end.Pending? then
                var rb := Loop(recordAudio, deadlineNs, ra.end.state, b);
                Run(rb.end, ra.trace + rb.trace)
              else ra
    decreases |a|
  {
    if |a| == 0 {
      assert a + b == b;
    } else {
      assert (a + b)[0] == a[0];
      assert (a + b)[1..] == a[1..] + b;
      var r := Step(recordAudio, deadlineNs, st, a[0]);
      if r.Next? {
        LoopSplit(recordAudio, deadlineNs, r.state, a[1..], b);
        var ra' := Loop(recordAudio, deadlineNs, r.state, a[1..]);
        if ra'.end.Pending? {
          var rb := Loop(recordAudio, deadlineNs, ra'.end.state, b);
          assert r.acts + (ra'.trace + rb.trace) == (r.acts + ra'.trace) + rb.trace;
        }
      }
    }
  }

  /**
   * The first iteration that sees the stop flag or a time past the deadline
   * ends the loop with NO_ERROR and adds no calls.
   */
  lemma StopsAtExitTick(recordAudio: bool, deadlineNs: int, st: LoopState, ticks: seq<Tick>, k: nat)
    requires !st.stopRequested
    requires k < |ticks| && ExitTick(ticks[k], deadlineNs)
    requires Loop(recordAudio, deadlineNs, st, ticks[..k]).end.Pending?
    ensures Loop(recordAudio, deadlineNs, st, ticks) == Run(Stopped, Loop(recordAudio, deadlineNs, st, ticks[..k]).trace)
  {
    assert ticks == ticks[..k] + ticks[k..];
    LoopSplit(recordAudio, deadlineNs, st, ticks[..k], ticks[k..]);
    var ra := Loop(recordAudio, deadlineNs, st, ticks[..k]);
    assert ticks[k..][0] == ticks[k];
    assert Step(recordAudio, deadlineNs, ra.end.state, ticks[k]).Stop?;
    assert ra.trace + [] == ra.trace;
  }

  /**
   * An iteration that fails, or whose CHECK aborts, ends the loop there:
   * the run ends with that iteration's status, and its calls close the
   * trace.
   */
  lemma EndsAtFailingTick(recordAudio: bool, deadlineNs: int, st: LoopState, ticks: seq<Tick>, k: nat)
    requires !st.stopRequested
    requires k < |ticks|
    requires Loop(recordAudio, deadlineNs, st, ticks[..k]).end.Pending?
    ensures var pre := Loop(recordAudio, deadlineNs, st, ticks[..k]);
            var t := Step(recordAudio, deadlineNs, pre.end.state, ticks[k]);
            && (t.Fail? ==> Loop(recordAudio, deadlineNs, st, ticks) == Run(Failed(t.code), pre.trace + t.acts))
            && (t.Abort? ==> Loop(recordAudio, deadlineNs, st, ticks) == Run(Aborted, pre.trace + t.acts))
  {
    assert ticks == ticks[..k] + ticks[k..];
    LoopSplit(recordAudio, deadlineNs, st, ticks[..k], ticks[k..]);
    assert ticks[k..][0] == ticks[k];
  }

  /**
   * An end-of-stream flag does not end the loop: it leaves the stop flag
   * lowered, so the next iteration stops only for an interrupt or the
   * deadline.
   */
  lemma EndOfStreamDoesNotStop(recordAudio: bool, deadlineNs: int, st: LoopState, t: Tick, t': Tick)
    requires !st.stopRequested
    requires t.video.Buffer? && HasFlag(t.video.flags, FlagEndOfStream)
    requires Step(recordAudio, deadlineNs, st, t).Next?
    ensures var next := Step(recordAudio, deadlineNs, st, t).state;
            Step(recordAudio, deadlineNs, next, t').Stop? <==> ExitTick(t', deadlineNs)
  {
  }

  /* ---------------------------------------------------------------------
   * Two behaviours of the code as written
   * ------------------------------------------------------------------- */

  const NoReply := Replies(0, NoError, NoError, NoError, NoError)

  function Quiet(video: Dequeue, track: int): Tick {
    Tick(false, 0, 0, video, Replies(track, NoError, NoError, NoError, NoError), TryAgain, NoReply)
  }

  /**
   * With audio recorded, a video sample can be written after the video
   * track was added but before the muxer was started: only the track-index
   * CHECK guards the write.
   */
  lemma VideoWriteBeforeStart()
    ensures var tr := Loop(true, 1, Initial(), [Quiet(FormatChanged, 0), Quiet(Buffer(3, 100, 5, 0), 0)]).trace;
            tr == [AddTrack(Video, 0), Write(Video, 0, 5, 0), Release(Video, 3)]
            && StartMuxer !in tr
  {
    var ticks := [Quiet(FormatChanged, 0), Quiet(Buffer(3, 100, 5, 0), 0)];
    var st1 := Initial().(videoTrack := 0, tracksAdded := 1);
    assert Step(true, 1, Initial(), ticks[0]) == Next(st1, [AddTrack(Video, 0)]);
    assert Step(true, 1, st1, ticks[1]) == Next(st1, [Write(Video, 0, 5, 0), Release(Video, 3)]);
    assert ticks[1..][1..] == [];
  }

  /**
   * The muxer is started after two `addTrack` calls whichever streams made
   * them: two video format changes with audio recorded start it with no
   * audio track.
   */
  lemma StartWithoutAudioTrack()
    ensures var r := Loop(true, 1, Initial(), [Quiet(FormatChanged, 0), Quiet(FormatChanged, 1)]);
            r.trace == [AddTrack(Video, 0), AddTrack(Video, 1), StartMuxer]
            && r.end.Pending? && r.end.state.audioTrack == Unassigned && r.end.state.muxerStarted
  {
    var ticks := [Quiet(FormatChanged, 0), Quiet(FormatChanged, 1)];
    var st1 := Initial().(videoTrack := 0, tracksAdded := 1);
    var st2 := st1.(videoTrack := 1, tracksAdded := 2, muxerStarted := true);
    assert Step(true, 1, Initial(), ticks[0]) == Next(st1, [AddTrack(Video, 0)]);
    assert Step(true, 1, st1, ticks[1]) == Next(st2, [AddTrack(Video, 1), StartMuxer]);
    assert ticks[1..][1..] == [];
  }
}

=== FILE: recorder.dfy ===
/**
 * `recordScreen`: the decisions around the encode-and-mux loop. It picks
 * the video size, prepares the video encoder with a single 720p retry,
 * prepares the audio encoder (falling back to video only), runs the loop,
 * and tears everything down in an order that depends on how the loop
 * ended. The collaborators' answers arrive in an `Environment`; the calls
 * made on them are recorded in order.
 */
module Recorder {
  import opened Wrappers
  import opened Status
  import opened Geometry
  import opened EncoderLoop
  import CommandLine
  import opened LoopProperties

  const FallbackWidth: nat := 1280
  const FallbackHeight: nat := 720
  const RotationHintDegrees: int := 90

  /** What the collaborators of `recordScreen` answer. */
  datatype Environment = Environment(
    signalsStatus: int,   // configureSignals
    displayStatus: int,   // SurfaceComposerClient::getDisplayInfo
    display: DisplayInfo,
    videoStatus: int,     // the first prepareVideoEncoder
    retryStatus: int,     // the second prepareVideoEncoder, if made
    audioStatus: int,     // prepareAudioEncoder
    encoder: Setup,       // what runEncoder is told before its loop
    ticks: seq<Tick>)     // what each iteration of its loop observes

  /** A call `recordScreen` makes, in the order it makes them. */
  datatype Call =
    | ConfigureSignals
    | StartThreadPool
    | GetDisplayInfo
    | PrepareVideo(size: Size)
    | PrepareAudio
    | CreateVirtualDisplay(layerStack: Size, frame: Size)
    | CreateMuxer
    | SetOrientationHint(degrees: int)
    | Encoder(action: Action)
    | DestroyDisplay
    | StopVideo
    | StopAudio
    | StopMuxer
    | ReleaseVideo
    | ReleaseAudio
  {
    predicate IsEncoderStop() {
      StopVideo? || StopAudio?
    }

    predicate IsStop() {
      StopVideo? || StopAudio? || StopMuxer?
    }

    predicate IsRelease() {
      ReleaseVideo? || ReleaseAudio?
    }
  }

  /** How a recording ends: NO_ERROR, an error code, a failed CHECK, or still running. */
  datatype Outcome = Finished | Error(code: int) | Crashed | Unfinished

  datatype Session = Session(outcome: Outcome, calls: seq<Call>)

  /* ---------------------------------------------------------------------
   * The 720p fallback
   * ------------------------------------------------------------------- */

  /**
   * The fallback size is 1280x720, turned to 720x1280 when the size that
   * failed is portrait.
   */
  function FallbackSize(failed: Size): (r: Size)
    ensures r.IsPortrait() <==> failed.IsPortrait()
    ensures r == Size(FallbackWidth, FallbackHeight) || r == Size(FallbackHeight, FallbackWidth)
  {
    var needSwap := failed.width < failed.height;
    Size(if needSwap then FallbackHeight else FallbackWidth, if needSwap then FallbackWidth else FallbackHeight)
  }

  /**
   * The size of the second attempt, if one is made: only after a failure,
   * only when the user gave no size, and only when the failed size differs
   * from the fallback in both width and height.
   */
  function RetrySize(firstStatus: int, sizeSpecified: bool, failed: Size): (r: Option<Size>)
    ensures r.Some? <==>
              && firstStatus != NoError
              && !sizeSpecified
              && failed.width != FallbackSize(failed).width
              && failed.height != FallbackSize(failed).height
    ensures r.Some? ==> r.value == FallbackSize(failed) && r.value != failed
  {
    if firstStatus != NoError && !sizeSpecified then
      var fallback := FallbackSize(failed);
      if failed.width != fallback.width && failed.height != fallback.height then Some(fallback) else None
    else None
  }

  /* ---------------------------------------------------------------------
   * recordScreen
   * ------------------------------------------------------------------- */

  /** The loop's calls, as calls of `recordScreen`. */
  function Lift(trace: seq<Action>): (r: seq<Call>)
    ensures |r| == |trace|
    ensures forall i :: 0 <= i < |r| ==> r[i] == Encoder(trace[i])
  {
    seq(|trace|, i requires 0 <= i < |trace| => Encoder(trace[i]))
  }

  /** Shutting down after a clean exit, starting with the producer side. */
  function Shutdown(recordAudio: bool): (r: seq<Call>)
    ensures |r| > 0 && r[0] == DestroyDisplay && StopMuxer in r && ReleaseVideo in r
    ensures StopAudio in r <==> recordAudio
    ensures ReleaseAudio in r <==> recordAudio
    ensures forall i, j :: 0 <= i < |r| && 0 <= j < |r| && r[i].IsStop() && r[j].IsRelease() ==> i < j
    ensures forall i, j :: 0 <= i < |r| && 0 <= j < |r| && r[i].IsEncoderStop() && r[j].StopMuxer? ==> i < j
    ensures forall c :: c in r ==> c.IsStop() || c.IsRelease() || c.DestroyDisplay?
    ensures StopVideo in r && |r| == if recordAudio then 6 else 4
  {
    [DestroyDisplay, StopVideo] + (if recordAudio then [StopAudio] else [])
    + [StopMuxer, ReleaseVideo] + (if recordAudio then [ReleaseAudio] else [])
  }

  /**
   * The shutdown makes each call once, and handles the video encoder ahead
   * of the audio encoder.
   */
  lemma ShutdownOnce(recordAudio: bool)
    ensures var r := Shutdown(recordAudio);
      && (forall i, j :: 0 <= i < j < |r| ==> r[i] != r[j])
      && (forall i, j :: 0 <= i < |r| && 0 <= j < |r| && r[i].StopVideo? && r[j].StopAudio? ==> i < j)
      && (forall i, j :: 0 <= i < |r| && 0 <= j < |r| && r[i].ReleaseVideo? && r[j].ReleaseAudio? ==> i < j)
  {
    var r := Shutdown(recordAudio);
    if recordAudio {
      assert r == [DestroyDisplay, StopVideo, StopAudio, StopMuxer, ReleaseVideo, ReleaseAudio];
    } else {
      assert r == [DestroyDisplay, StopVideo, StopMuxer, ReleaseVideo];
    }
  }

  /** Releasing the encoders after the loop failed; the muxer is not stopped. */
  function ReleaseEncoders(recordAudio: bool): (r: seq<Call>)
    ensures StopMuxer !in r && ReleaseVideo in r
    ensures forall c :: c in r ==> c.IsRelease()
    ensures ReleaseAudio in r <==> recordAudio
    ensures |r| == (if recordAudio then 2 else 1) && r[0] == ReleaseVideo
  {
    [ReleaseVideo] + (if recordAudio then [ReleaseAudio] else [])
  }

  /** The calls up to and including the video encoder's preparation, and their status. */
  datatype Startup = Startup(status: int, calls: seq<Call>, size: Size)

  function StartUp(settings: CommandLine.Settings, env: Environment): (r: Startup)
    ensures |r.calls| > 0 && r.calls[0] == ConfigureSignals
    ensures forall c :: c in r.calls ==> c.ConfigureSignals? || c.StartThreadPool? || c.GetDisplayInfo? || c.PrepareVideo?
    ensures env.signalsStatus != NoError ==> r.status == env.signalsStatus && r.calls == [ConfigureSignals]
    ensures env.signalsStatus == NoError && env.displayStatus != NoError ==>
              r.status == env.displayStatus && r.calls == [ConfigureSignals, StartThreadPool, GetDisplayInfo]
    // past the display query: the status of the last preparation, at the size it was made
    ensures env.signalsStatus == NoError && env.displayStatus == NoError ==>
              var size := DefaultVideoSize(settings.size, env.display);
              var retry := RetrySize(env.videoStatus, settings.sizeSpecified, size);
              && r.status == (if retry.Some? then env.retryStatus else env.videoStatus)
              && r.size == (if retry.Some? then retry.value else size)
              && r.calls == [ConfigureSignals, StartThreadPool, GetDisplayInfo, PrepareVideo(size)]
                            + (if retry.Some? then [PrepareVideo(retry.value)] else [])
  {
    var calls := [ConfigureSignals];
    if env.signalsStatus != NoError then Startup(env.signalsStatus, calls, settings.size)
    else
      var calls := calls + [StartThreadPool, GetDisplayInfo];
      if env.displayStatus != NoError then Startup(env.displayStatus, calls, settings.size)
      else
        var size := DefaultVideoSize(settings.size, env.display);
        var calls := calls + [PrepareVideo(size)];
        match RetrySize(env.videoStatus, settings.sizeSpecified, size)
        case Some(fallback) => Startup(env.retryStatus, calls + [PrepareVideo(fallback)], fallback)
        case None => Startup(env.videoStatus, calls, size)
  }

  /** Whether the recording goes on with audio: asked for, and its encoder prepared. */
  function AudioRecorded(settings: CommandLine.Settings, env: Environment): (r: bool)
    ensures r ==> settings.recordAudio
    ensures settings.recordAudio ==> (r <==> env.audioStatus == NoError)
  {
    settings.recordAudio && env.audioStatus == NoError
  }

  /**
   * The calls after the video encoder is prepared, up to the encoder loop:
   * the audio encoder, the virtual display and the muxer.
   */
  function Staging(settings: CommandLine.Settings, display: DisplayInfo, size: Size): (r: seq<Call>)
    ensures PrepareAudio in r <==> settings.recordAudio
    ensures SetOrientationHint(RotationHintDegrees) in r <==> settings.rotate
    ensures CreateMuxer in r
    ensures forall c :: c in r ==> c.PrepareAudio? || c.CreateVirtualDisplay? || c.CreateMuxer? || c.SetOrientationHint?
  {
    (if settings.recordAudio then [PrepareAudio] else [])
    + [CreateVirtualDisplay(LayerStackSize(display), ProjectionFrame(size, settings.rotate)), CreateMuxer]
    + (if settings.rotate then [SetOrientationHint(RotationHintDegrees)] else [])
  }

  /**
   * The staging calls in the order `recordScreen` makes them: the audio
   * encoder, the virtual display over the display's layer stack with the
   * video's projection frame, the muxer, and last the rotation hint.
   */
  lemma StagingOrder(settings: CommandLine.Settings, display: DisplayInfo, size: Size)
    ensures var r := Staging(settings, display, size);
      && CreateVirtualDisplay(LayerStackSize(display), ProjectionFrame(size, settings.rotate)) in r
      && |r| == 2 + (if settings.recordAudio then 1 else 0) + (if settings.rotate then 1 else 0)
      && (forall i, j :: 0 <= i < |r| && 0 <= j < |r| && r[i].PrepareAudio? && r[j].CreateVirtualDisplay? ==> i < j)
      && (forall i, j :: 0 <= i < |r| && 0 <= j < |r| && r[i].CreateVirtualDisplay? && r[j].CreateMuxer? ==> i < j)
      && (forall i, j :: 0 <= i < |r| && 0 <= j < |r| && r[i].CreateMuxer? && r[j].SetOrientationHint? ==> i < j)
  {
    var r := Staging(settings, display, size);
    var v := CreateVirtualDisplay(LayerStackSize(display), ProjectionFrame(size, settings.rotate));
    var h := SetOrientationHint(RotationHintDegrees);
    if settings.recordAudio && settings.rotate {
      assert r == [PrepareAudio, v, CreateMuxer, h];
    } else if settings.recordAudio {
      assert r == [PrepareAudio, v, CreateMuxer];
    } else if settings.rotate {
      assert r == [v, CreateMuxer, h];
    } else {
      assert r == [v, CreateMuxer];
    }
  }

  /** What the session's outcome is, given how the loop ended. */
  function OutcomeOf(end: End): (r: Outcome)
    ensures r == Finished <==> end == Stopped
    ensures r.Error? <==> end.Failed?
    ensures r.Error? ==> r.code == end.code
  {
    match end
    case Stopped => Finished
    case Failed(code) => Error(code)
    case Aborted => Crashed
    case Pending(_) => Unfinished
  }

  /**
   * The teardown after the loop: a full shutdown after a clean exit, the
   * encoders' release after a failure, and nothing after a failed CHECK or
   * while the loop is still running.
   */
  function Teardown(recordAudio: bool, end: End): (r: seq<Call>)
    ensures end == Stopped ==> r == Shutdown(recordAudio)
    ensures end.Failed? ==> r == ReleaseEncoders(recordAudio)
    ensures end.Aborted? || end.Pending? ==> r == []
    ensures forall c :: c in r ==> c.IsStop() || c.IsRelease() || c.DestroyDisplay?
  {
    match end
    case Stopped => Shutdown(recordAudio)
    case Failed(_) => ReleaseEncoders(recordAudio)
    case _ => []
  }

  /**
   * Which teardown calls are made: the display is destroyed and the muxer
   * stopped only after a clean exit; the encoders are released after a
   * clean exit or a failure, the audio one only when audio is recorded.
   */
  lemma TeardownCalls(recordAudio: bool, end: End)
    ensures var r := Teardown(recordAudio, end);
      && (DestroyDisplay in r <==> end == Stopped)
      && (StopMuxer in r <==> end == Stopped)
      && (ReleaseVideo in r <==> end == Stopped || end.Failed?)
      && (ReleaseAudio in r <==> recordAudio && (end == Stopped || end.Failed?))
  {
  }

  /** The session once the video encoder is prepared, given how `runEncoder` went. */
  function Conclude(settings: CommandLine.Settings, env: Environment, start: Startup, run: Run): (r: Session)
    ensures r.outcome == OutcomeOf(run.end)
    ensures |r.calls| >= |start.calls| + |run.trace|
  {
    var recordAudio := AudioRecorded(settings, env);
    Session(OutcomeOf(run.end),
            start.calls + Staging(settings, env.display, start.size) + Lift(run.trace) + Teardown(recordAudio, run.end))
  }

  /**
   * After the start-up calls: the muxer is created, stopped only after a
   * clean exit, and the video encoder released after a clean exit or a
   * failure.
   */
  lemma ConcludeCalls(settings: CommandLine.Settings, env: Environment, start: Startup, run: Run)
    ensures var calls := Conclude(settings, env, start, run).calls;
      && |calls| >= |start.calls| && calls[..|start.calls|] == start.calls
      && CreateMuxer in calls[|start.calls|..]
      && (StopMuxer in calls[|start.calls|..] <==> run.end == Stopped)
      && (DestroyDisplay in calls[|start.calls|..] <==> run.end == Stopped)
      && (ReleaseVideo in calls[|start.calls|..] <==> run.end == Stopped || run.end.Failed?)
  {
    var staging := Staging(settings, env.display, start.size);
    var tail := Teardown(AudioRecorded(settings, env), run.end);
    TeardownCalls(AudioRecorded(settings, env), run.end);
    assert StopMuxer !in staging && ReleaseVideo !in staging && DestroyDisplay !in staging;
    assert StopMuxer !in Lift(run.trace) && ReleaseVideo !in Lift(run.trace) && DestroyDisplay !in Lift(run.trace);
    SuffixOfParts(start.calls, staging, Lift(run.trace), tail);
  }

  /**
   * In a session the muxer is created before the loop makes any encoder
   * call, for start-up calls of the kinds `StartUp` makes.
   */
  lemma MuxerBeforeEncoder(settings: CommandLine.Settings, env: Environment, start: Startup, run: Run)
    requires forall c :: c in start.calls ==> !c.CreateMuxer? && !c.Encoder?
    ensures var calls := Conclude(settings, env, start, run).calls;
      forall i, j :: 0 <= i < |calls| && 0 <= j < |calls| && calls[i].CreateMuxer? && calls[j].Encoder? ==> i < j
  {
    var body := Lift(run.trace);
    forall c | c in body
      ensures c.Encoder?
    {
      var i :| 0 <= i < |body| && body[i] == c;
    }
    PartsInOrder(start.calls, Staging(settings, env.display, start.size), body,
                 Teardown(AudioRecorded(settings, env), run.end));
  }

  /**
   * In four concatenated parts, a muxer creation in the second part precedes
   * the encoder calls of the third when neither occurs elsewhere.
   */
  lemma PartsInOrder(a: seq<Call>, b: seq<Call>, c: seq<Call>, d: seq<Call>)
    requires forall x :: x in a ==> !x.CreateMuxer? && !x.Encoder?
    requires forall x :: x in b ==> !x.Encoder?
    requires forall x :: x in c ==> x.Encoder?
    requires forall x :: x in d ==> !x.CreateMuxer? && !x.Encoder?
    ensures var s := a + b + c + d;
      forall i, j :: 0 <= i < |s| && 0 <= j < |s| && s[i].CreateMuxer? && s[j].Encoder? ==> i < j
  {
    var s := a + b + c + d;
    var k := |a| + |b|;
    forall i | k <= i < |s|
      ensures !s[i].CreateMuxer?
    {
      if i < k + |c| {
        assert s[i] == c[i - k] && c[i - k] in c;
      } else {
        assert s[i] == d[i - k - |c|] && d[i - k - |c|] in d;
      }
    }
    forall j | 0 <= j < k
      ensures !s[j].Encoder?
    {
      if j < |a| {
        assert s[j] == a[j] && a[j] in a;
      } else {
        assert s[j] == b[j - |a|] && b[j - |a|] in b;
      }
    }
  }

  /** What follows a prefix in four concatenated parts is the other three parts. */
  lemma SuffixOfParts(a: seq<Call>, b: seq<Call>, c: seq<Call>, d: seq<Call>)
    ensures var s := a + b + c + d;
      && |s| >= |a| && s[..|a|] == a && s[|a|..] == b + c + d
      && forall x :: x in s[|a|..] <==> x in b || x in c || x in d
  {
    var s := a + b + c + d;
    assert s == a + (b + c + d);
  }

  /** The run of `runEncoder` a session makes once its video encoder is prepared. */
  function EncoderRun(settings: CommandLine.Settings, env: Environment): Run {
    RunEncoder(AudioRecorded(settings, env), settings.timeLimitSec, env.encoder, env.ticks)
  }

  function RecordScreen(settings: CommandLine.Settings, env: Environment): (r: Session)
    ensures r.outcome.Error? ==> r.outcome.code != NoError
    ensures |r.calls| > 0 && r.calls[0] == ConfigureSignals
    ensures env.signalsStatus != NoError ==> r == Session(Error(env.signalsStatus), [ConfigureSignals])
    ensures env.signalsStatus == NoError && env.displayStatus != NoError ==>
              r == Session(Error(env.displayStatus), [ConfigureSignals, StartThreadPool, GetDisplayInfo])
    ensures env.signalsStatus == NoError && env.displayStatus == NoError ==>
              var size := DefaultVideoSize(settings.size, env.display);
              var retried := RetrySize(env.videoStatus, settings.sizeSpecified, size).Some?;
              var status := if retried then env.retryStatus else env.videoStatus;
              status != NoError ==>
                && r.outcome == Error(status)
                && (forall c :: c in r.calls ==> c.ConfigureSignals? || c.StartThreadPool? || c.GetDisplayInfo? || c.PrepareVideo?)
    ensures r.outcome == Finished ==>
              exists k :: 0 <= k < |env.ticks| && ExitTick(env.ticks[k], Deadline(env.encoder.startNs, settings.timeLimitSec))
    // once the video encoder is prepared, the session ends as runEncoder does
    ensures env.signalsStatus == NoError && env.displayStatus == NoError ==>
              var size := DefaultVideoSize(settings.size, env.display);
              var retried := RetrySize(env.videoStatus, settings.sizeSpecified, size).Some?;
              var status := if retried then env.retryStatus else env.videoStatus;
              status == NoError ==>
                r.outcome == OutcomeOf(RunEncoder(AudioRecorded(settings, env), settings.timeLimitSec, env.encoder, env.ticks).end)
  {
    var start := StartUp(settings, env);
    if start.status != NoError then Session(Error(start.status), start.calls)
    else Conclude(settings, env, start, EncoderRun(settings, env))
  }

  /* ---------------------------------------------------------------------
   * What a session's calls show
   * ------------------------------------------------------------------- */

  /** The sizes the video encoder was prepared at, in order. */
  function VideoPreparations(calls: seq<Call>): seq<Size>
    decreases |calls|
  {
    if |calls| == 0 then []
    else (if calls[0].PrepareVideo? then [calls[0].size] else []) + VideoPreparations(calls[1..])
  }

  /** The calls made from inside the encoder loop, in order. */
  function EncoderActions(calls: seq<Call>): seq<Action>
    decreases |calls|
  {
    if |calls| == 0 then []
    else (if calls[0].Encoder? then [calls[0].action] else []) + EncoderActions(calls[1..])
  }

  lemma {:induction false} FiltersAppend(a: seq<Call>, b: seq<Call>)
    ensures VideoPreparations(a + b) == VideoPreparations(a) + VideoPreparations(b)
    ensures EncoderActions(a + b) == EncoderActions(a) + EncoderActions(b)
    decreases |a|
  {
    if |a| > 0 {
      assert (a + b)[0] == a[0];
      assert (a + b)[1..] == a[1..] + b;
      FiltersAppend(a[1..], b);
    } else {
      assert a + b == b;
    }
  }

  lemma {:induction false} NoVideoPreparations(calls: seq<Call>)
    requires forall c :: c in calls ==> !c.PrepareVideo?
    ensures VideoPreparations(calls) == []
    decreases |calls|
  {
    if |calls| > 0 {
      assert calls[0] in calls;
      assert forall c :: c in calls[1..] ==> c in calls;
      NoVideoPreparations(calls[1..]);
    }
  }

  lemma {:induction false} NoEncoderActions(calls: seq<Call>)
    requires forall c :: c in calls ==> !c.Encoder?
    ensures EncoderActions(calls) == []
    decreases |calls|
  {
    if |calls| > 0 {
      assert calls[0] in calls;
      assert forall c :: c in calls[1..] ==> c in calls;
      NoEncoderActions(calls[1..]);
    }
  }

  lemma {:induction false} LiftFilters(trace: seq<Action>)
    ensures EncoderActions(Lift(trace)) == trace
    ensures VideoPreparations(Lift(trace)) == []
    decreases |trace|
  {
    if |trace| > 0 {
      assert Lift(trace)[1..] == Lift(trace[1..]);
      LiftFilters(trace[1..]);
    }
  }

  /** No video preparation follows the start-up. */
  lemma ConcludePreparations(settings: CommandLine.Settings, env: Environment, start: Startup, run: Run)
    ensures VideoPreparations(Conclude(settings, env, start, run).calls) == VideoPreparations(start.calls)
  {
    var staging := Staging(settings, env.display, start.size);
    var tail := Teardown(AudioRecorded(settings, env), run.end);
    StagingFilters(settings, env.display, start.size);
    TeardownFilters(AudioRecorded(settings, env), run.end);
    LiftFilters(run.trace);
    PreparationsOfParts(start.calls, staging, Lift(run.trace), tail);
  }

  /** The encoder loop's calls are the session's only encoder calls. */
  lemma ConcludeActions(settings: CommandLine.Settings, env: Environment, start: Startup, run: Run)
    requires forall c :: c in start.calls ==> c.ConfigureSignals? || c.StartThreadPool? || c.GetDisplayInfo? || c.PrepareVideo?
    ensures EncoderActions(Conclude(settings, env, start, run).calls) == run.trace
  {
    var staging := Staging(settings, env.display, start.size);
    var tail := Teardown(AudioRecorded(settings, env), run.end);
    StagingFilters(settings, env.display, start.size);
    NoEncoderActions(start.calls);
    TeardownFilters(AudioRecorded(settings, env), run.end);
    LiftFilters(run.trace);
    ActionsOfParts(start.calls, staging, Lift(run.trace), tail);
  }

  lemma StagingFilters(settings: CommandLine.Settings, display: DisplayInfo, size: Size)
    ensures VideoPreparations(Staging(settings, display, size)) == []
    ensures EncoderActions(Staging(settings, display, size)) == []
  {
    var staging := Staging(settings, display, size);
    NoVideoPreparations(staging);
    NoEncoderActions(staging);
  }

  lemma TeardownFilters(recordAudio: bool, end: End)
    ensures VideoPreparations(Teardown(recordAudio, end)) == []
    ensures EncoderActions(Teardown(recordAudio, end)) == []
  {
    TeardownHasNoFilters(Teardown(recordAudio, end));
  }

  lemma TeardownHasNoFilters(calls: seq<Call>)
    requires forall c :: c in calls ==> c.IsStop() || c.IsRelease() || c.DestroyDisplay?
    ensures VideoPreparations(calls) == [] && EncoderActions(calls) == []
  {
    NoVideoPreparations(calls);
    NoEncoderActions(calls);
  }

  /** The video preparations of four concatenated parts, when only the first prepares. */
  lemma PreparationsOfParts(a: seq<Call>, b: seq<Call>, c: seq<Call>, d: seq<Call>)
    requires VideoPreparations(b) == [] && VideoPreparations(c) == [] && VideoPreparations(d) == []
    ensures VideoPreparations(a + b + c + d) == VideoPreparations(a)
  {
    FiltersAppend(a, b);
    FiltersAppend(a + b, c);
    FiltersAppend(a + b + c, d);
  }

  /** The encoder calls of four concatenated parts, when only the third encodes. */
  lemma ActionsOfParts(a: seq<Call>, b: seq<Call>, c: seq<Call>, d: seq<Call>)
    requires EncoderActions(a) == [] && EncoderActions(b) == [] && EncoderActions(d) == []
    ensures EncoderActions(a + b + c + d) == EncoderActions(c)
  {
    FiltersAppend(a, b);
    FiltersAppend(a + b, c);
    FiltersAppend(a + b + c, d);
  }

  /* ---------------------------------------------------------------------
   * Properties of recordScreen
   * ------------------------------------------------------------------- */

  /** The start-up's video preparations: the default size, then the fallback if a retry is made. */
  lemma StartUpPreparations(settings: CommandLine.Settings, env: Environment)
    ensures var preps := VideoPreparations(StartUp(settings, env).calls);
            var size := DefaultVideoSize(settings.size, env.display);
            && (env.signalsStatus != NoError || env.displayStatus != NoError ==> preps == [])
            && (env.signalsStatus == NoError && env.displayStatus == NoError ==>
                  preps == [size] + (match RetrySize(env.videoStatus, settings.sizeSpecified, size)
                                     case Some(fallback) => [fallback]
                                     case None => []))
  {
    var start := StartUp(settings, env);
    if env.signalsStatus == NoError && env.displayStatus == NoError {
      var size := DefaultVideoSize(settings.size, env.display);
      var retry := RetrySize(env.videoStatus, settings.sizeSpecified, size);
      var first := [ConfigureSignals, StartThreadPool, GetDisplayInfo] + [PrepareVideo(size)];
      assert VideoPreparations(first) == [size] by {
        NoVideoPreparations([ConfigureSignals, StartThreadPool, GetDisplayInfo]);
        assert [PrepareVideo(size)][1..] == [];
        FiltersAppend([ConfigureSignals, StartThreadPool, GetDisplayInfo], [PrepareVideo(size)]);
      }
      if retry.Some? {
        assert start.calls == first + [PrepareVideo(retry.value)];
        assert VideoPreparations(first + [PrepareVideo(retry.value)]) == [size, retry.value] by {
          assert [PrepareVideo(retry.value)][1..] == [];
          FiltersAppend(first, [PrepareVideo(retry.value)]);
        }
      } else {
        assert start.calls == first;
      }
    } else {
      NoVideoPreparations(start.calls);
    }
  }

  /**
   * The video encoder is prepared at the default size and, only when the
   * fallback conditions hold, once more at the fallback size: never more
   * than twice.
   */
  lemma RetriesAtMostOnce(settings: CommandLine.Settings, env: Environment)
    ensures var preps := VideoPreparations(RecordScreen(settings, env).calls);
            var size := DefaultVideoSize(settings.size, env.display);
            && |preps| <= 2
            && (env.signalsStatus != NoError || env.displayStatus != NoError ==> preps == [])
            && (env.signalsStatus == NoError && env.displayStatus == NoError ==>
                  preps == [size] + (match RetrySize(env.videoStatus, settings.sizeSpecified, size)
                                     case Some(fallback) => [fallback]
                                     case None => []))
  {
    var start := StartUp(settings, env);
    StartUpPreparations(settings, env);
    if start.status == NoError {
      ConcludePreparations(settings, env, start, EncoderRun(settings, env));
    }
  }

  /** Calls made by the start-up, the staging and the loop are neither teardown calls nor releases. */
  lemma BodyHasNoTeardown(settings: CommandLine.Settings, env: Environment, start: Startup, trace: seq<Action>)
    requires forall c :: c in start.calls ==> c.ConfigureSignals? || c.StartThreadPool? || c.GetDisplayInfo? || c.PrepareVideo?
    ensures var body := start.calls + Staging(settings, env.display, start.size) + Lift(trace);
            && CreateMuxer in body
            && forall c :: c in body ==> !c.IsStop() && !c.IsRelease() && !c.DestroyDisplay?
  {
    var staging := Staging(settings, env.display, start.size);
    var body := start.calls + staging + Lift(trace);
    assert CreateMuxer in staging;
    forall c | c in body
      ensures !c.IsStop() && !c.IsRelease() && !c.DestroyDisplay?
    {
      if c in Lift(trace) {
        var i :| 0 <= i < |Lift(trace)| && Lift(trace)[i] == c;
      }
    }
  }

  /**
   * The muxer is stopped, and the virtual display destroyed, exactly when
   * the session finishes cleanly; the encoders are released after a clean
   * finish and after a failure of the loop, but not when start-up failed.
   */
  lemma StopMuxerOnlyOnSuccess(settings: CommandLine.Settings, env: Environment)
    ensures var r := RecordScreen(settings, env);
            && (StopMuxer in r.calls <==> r.outcome == Finished)
            && (DestroyDisplay in r.calls <==> r.outcome == Finished)
            && (ReleaseVideo in r.calls <==> r.outcome == Finished || (r.outcome.Error? && CreateMuxer in r.calls))
  {
    var start := StartUp(settings, env);
    if start.status == NoError {
      ConcludeStops(settings, env, start, EncoderRun(settings, env));
    } else {
      assert StopMuxer !in start.calls && DestroyDisplay !in start.calls;
      assert ReleaseVideo !in start.calls && CreateMuxer !in start.calls;
    }
  }

  /** `StopMuxerOnlyOnSuccess` once start-up has succeeded. */
  lemma ConcludeStops(settings: CommandLine.Settings, env: Environment, start: Startup, run: Run)
    requires forall c :: c in start.calls ==> c.ConfigureSignals? || c.StartThreadPool? || c.GetDisplayInfo? || c.PrepareVideo?
    ensures var r := Conclude(settings, env, start, run);
            && (StopMuxer in r.calls <==> r.outcome == Finished)
            && (DestroyDisplay in r.calls <==> r.outcome == Finished)
            && (ReleaseVideo in r.calls <==> r.outcome == Finished || (r.outcome.Error? && CreateMuxer in r.calls))
  {
    var r := Conclude(settings, env, start, run);
    assert StopMuxer !in start.calls && DestroyDisplay !in start.calls;
    assert ReleaseVideo !in start.calls;
    ConcludeCalls(settings, env, start, run);
    var k := |start.calls|;
    SplitMembers(r.calls, k, StopMuxer);
    SplitMembers(r.calls, k, DestroyDisplay);
    SplitMembers(r.calls, k, ReleaseVideo);
    SplitMembers(r.calls, k, CreateMuxer);
  }

  lemma SplitMembers(s: seq<Call>, k: nat, x: Call)
    requires k <= |s|
    ensures x in s <==> x in s[..k] || x in s[k..]
  {
    assert s == s[..k] + s[k..];
  }

  /**
   * After a clean finish the shutdown sequence is the last thing done: the
   * display goes first, every stop precedes every release, and the muxer
   * is stopped after the encoders. Audio is stopped and released exactly
   * when it was recorded.
   */
  lemma TeardownOrder(settings: CommandLine.Settings, env: Environment)
    ensures var r := RecordScreen(settings, env);
            var tail := Shutdown(AudioRecorded(settings, env));
            r.outcome == Finished ==>
              && |tail| <= |r.calls|
              && r.calls[|r.calls| - |tail|..] == tail
              && (forall i :: 0 <= i < |r.calls| - |tail| ==> !r.calls[i].IsStop() && !r.calls[i].IsRelease())
  {
    if RecordScreen(settings, env).outcome == Finished {
      FinishedConcludes(settings, env);
      ShutdownLast(settings, env, StartUp(settings, env), EncoderRun(settings, env));
    }
  }

  /** A session that finishes got past start-up and left the loop cleanly. */
  lemma FinishedConcludes(settings: CommandLine.Settings, env: Environment)
    requires RecordScreen(settings, env).outcome == Finished
    ensures StartUp(settings, env).status == NoError
    ensures EncoderRun(settings, env).end == Stopped
    ensures RecordScreen(settings, env) == Conclude(settings, env, StartUp(settings, env), EncoderRun(settings, env))
  {
  }

  lemma ShutdownLast(settings: CommandLine.Settings, env: Environment, start: Startup, run: Run)
    requires forall c :: c in start.calls ==> c.ConfigureSignals? || c.StartThreadPool? || c.GetDisplayInfo? || c.PrepareVideo?
    requires run.end == Stopped
    ensures var calls := Conclude(settings, env, start, run).calls;
            var tail := Shutdown(AudioRecorded(settings, env));
            && |tail| <= |calls|
            && calls[|calls| - |tail|..] == tail
            && (forall i :: 0 <= i < |calls| - |tail| ==> !calls[i].IsStop() && !calls[i].IsRelease())
  {
    var calls := Conclude(settings, env, start, run).calls;
    var body := start.calls + Staging(settings, env.display, start.size) + Lift(run.trace);
    var tail := Shutdown(AudioRecorded(settings, env));
    BodyHasNoTeardown(settings, env, start, run.trace);
    assert calls == body + tail;
    TailAfterBody(body, tail);
  }

  /** Appending `tail` to calls that neither stop nor release leaves `tail` as the only stops and releases. */
  lemma TailAfterBody(body: seq<Call>, tail: seq<Call>)
    requires forall c :: c in body ==> !c.IsStop() && !c.IsRelease()
    ensures var calls := body + tail;
            && calls[|calls| - |tail|..] == tail
            && forall i :: 0 <= i < |calls| - |tail| ==> !calls[i].IsStop() && !calls[i].IsRelease()
  {
    var calls := body + tail;
    assert calls[|calls| - |tail|..] == tail;
    forall i | 0 <= i < |calls| - |tail|
      ensures !calls[i].IsStop() && !calls[i].IsRelease()
    {
      assert calls[i] == body[i];
      assert body[i] in body;
    }
  }

  /**
   * When the audio encoder cannot be prepared the recording carries on
   * with video only: no audio call is made from the loop and the audio
   * encoder is neither stopped nor released.
   */
  lemma AudioFailureRecordsVideoOnly(settings: CommandLine.Settings, env: Environment)
    requires settings.recordAudio && env.audioStatus != NoError
    ensures var r := RecordScreen(settings, env);
            && (PrepareAudio in r.calls <==> CreateMuxer in r.calls)
            && (forall a :: a in EncoderActions(r.calls) ==> !a.IsAudio())
            && StopAudio !in r.calls && ReleaseAudio !in r.calls
  {
    var r := RecordScreen(settings, env);
    var start := StartUp(settings, env);
    if start.status == NoError {
      var run := EncoderRun(settings, env);
      var staging := Staging(settings, env.display, start.size);
      var body := start.calls + staging + Lift(run.trace);
      var tail := Teardown(false, run.end);
      assert !AudioRecorded(settings, env);
      assert r.calls == body + tail;
      assert forall a :: a in run.trace ==> !a.IsAudio();
      assert EncoderActions(r.calls) == run.trace by {
        ConcludeActions(settings, env, start, run);
      }
      assert StopAudio !in body && ReleaseAudio !in body && PrepareAudio in body && CreateMuxer in body by {
        BodyHasNoTeardown(settings, env, start, run.trace);
        assert PrepareAudio in staging;
      }
      assert StopAudio !in tail && ReleaseAudio !in tail;
    } else {
      NoEncoderActions(start.calls);
    }
  }

  /**
   * Every muxer call a session makes is sound: writes name their stream's
   * registered track, audio timestamps never go back, and the muxer starts
   * only with the expected tracks.
   */
  lemma SessionConforms(settings: CommandLine.Settings, env: Environment)
    ensures Conforms(Initial(), EncoderActions(RecordScreen(settings, env).calls), AudioRecorded(settings, env))
  {
    var start := StartUp(settings, env);
    if start.status == NoError {
      var run := EncoderRun(settings, env);
      ConcludeActions(settings, env, start, run);
      RunEncoderConforms(AudioRecorded(settings, env), settings.timeLimitSec, env.encoder, env.ticks);
    } else {
      NoEncoderActions(start.calls);
    }
  }
}

=== FILE: status.dfy ===
/**
 * Status codes, buffer flags and fixed-width integer conversions shared by
 * the screen recorder model.
 *
 * The numeric values come from Android's utils/Errors.h,
 * media/stagefright/MediaErrors.h and media/stagefright/MediaCodec.h, which
 * are not part of this model; only their distinctness matters to the loop.
 */
module Status {

  /** status_t values returned by the codec, muxer and audio APIs. */
  const NoError: int := 0
  const TryAgainLater: int := -11             // -EAGAIN
  const BadValue: int := -22                  // -EINVAL
  const InvalidOperation: int := -38          // -ENOSYS
  const InfoFormatChanged: int := -1012       // MEDIA_ERROR_BASE - 12
  const InfoOutputBuffersChanged: int := -1014 // MEDIA_ERROR_BASE - 14

  /** The codes that `runEncoder`'s switch statements name explicitly. */
  predicate Recognized(code: int) {
    code == NoError || code == TryAgainLater || code == InvalidOperation
    || code == InfoFormatChanged || code == InfoOutputBuffersChanged
  }

  /** A dequeue status that falls into the `default:` arm of the switch. */
  type UnknownCode = c: int | !Recognized(c) witness 1

  /** MediaCodec::BufferFlags. */
  type Flags = bv32
  const FlagCodecConfig: Flags := 2
  const FlagEndOfStream: Flags := 4

  predicate HasFlag(flags: Flags, flag: Flags) {
    flags & flag != 0
  }

  const U32Modulus: int := 0x1_0000_0000

  /**
   * Conversion of a C integer to `uint32_t`: reduction modulo 2^32, so a
   * negative value wraps to a large unsigned one.
   */
  function ToU32(x: int): (r: nat)
    ensures r < U32Modulus
    ensures (r - x) % U32Modulus == 0
    ensures 0 <= x < U32Modulus ==> r == x
  {
    x % U32Modulus
  }
}

=== FILE: wrappers.dfy ===
/** Optional values, for parsers and decisions that may produce nothing. */
module Wrappers {
  datatype Option<+T> = None | Some(value: T)
}
